=== FILE: README.md ===
# Congress bookkeeping core, modelled in Dafny

This project models the sequential bookkeeping at the heart of the Congress
policy service and proves properties about it:

- **the policy engine's `Runtime`** (`congress/policy_engines/agnostic.py`):
  - the name-to-policy registry: create, delete, rename, exists, and
    `get_target` disambiguation;
  - grouping of events by target policy;
  - the all-or-nothing `_update_obj` gate;
  - `resolve_conflicts`;
  - the delta a simulation reports;
  - `service:table` name parsing and reserved names;
  - table subscription diffing on the message bus;
  - the `ExecutionLogger`.
- **the `Synchronizer`** (`congress/synchronizer.py`):
  - the poll timer `d6run`;
  - `synchronize`, which reconciles the datasources running in the server
    with the datasource rows in the database.
- **the Glance v2 datasource driver** (`congress/datasources/glancev2_driver.py`):
  - its declarative translator schema for images and tags;
  - the full-refresh update that rebuilds both tables;
  - the handling of an HTTP 401 from the image service.
- **the compute-placement engine** (`congress/policy_engines/vm_placement.py`):
  - subscription diffing when its policy is replaced;
  - routing of published data messages to the full-table or delta handler;
  - rewriting of delta events onto service-qualified tables.

Collaborators whose code is not part of this model enter the model as
parameters. These are the Datalog theories (`update`,
`update_would_cause_errors`), the rule dependency graph, the generic
translation engine `convert_objs`, the message bus, the database and the
clock. Each module's header comment says which parameters stand for what.

Files:

| file | module | models |
|---|---|---|
| `wrappers.dfy` | `Wrappers`, `Exceptions` | Option/Result; the Python exceptions raised |
| `strings.dfy` | `Strings` | `str.split`, `str.join`, `startswith` and ASCII `lower` |
| `datalog.dfy` | `Datalog` | terms, atoms, formulas, events, and update atoms `p+`/`p-` |
| `tablenames.dfy` | `Tablenames` | `parse_tablename`, `service:table` names, `reserved_tablename` |
| `policy_runtime.dfy` | `PolicyRuntime` | the policy registry |
| `runtime_events.dfy` | `RuntimeEvents` | `group_events_by_target`, `resolve_conflicts`, simulate delta |
| `runtime_update.dfy` | `RuntimeUpdate` | `_update_obj` |
| `dse_runtime.dfy` | `DseRuntime` | `update_table_subscriptions` |
| `execution_logger.dfy` | `ExecutionLogging` | `ExecutionLogger` |
| `synchronizer.dfy` | `Synchronizer` | `d6run`, `synchronize`, `_config_eq` |
| `glancev2_driver.dfy` | `GlanceV2Driver` | translator schema, `update_from_datasource`, `_translate_images`, `_initialize_tables` |
| `vm_placement.dfy` | `VmPlacement` | `set_policy`, `_set_subscriptions`, `receive_data*` |

## Model

| member | source | states |
|---|---|---|
| Strings.Split | congress/policy_engines/agnostic.py:950-954 | `split(':')` yields at least one piece. No piece contains the separator. Joining the pieces gives back the input. There is one piece exactly when the separator is absent. |
| Strings.SplitJoin | congress/policy_engines/agnostic.py:950-954 | Splitting a join of separator-free pieces gives back those pieces. |
| Strings.Lower | congress/policy_engines/agnostic.py:120 | `kind.lower()` keeps the length and maps each character to its lower case. |
| Datalog.Fact | congress/policy_engines/vm_placement.py:151 | A fact has the given table and one constant argument per value, in order. |
| Datalog.MakeUpdate | congress/policy_engines/agnostic.py:587-588 | `make_update` marks an atom as insertion or deletion and keeps its arguments. |
| Datalog.InvertUpdate | congress/policy_engines/agnostic.py:768 | `invert_update` turns `p+` into `p-` and `p-` into `p+` on the same stem, keeps the arguments, and leaves an atom that is not an update unchanged. |
| Datalog.InvertInvolutive | congress/policy_engines/agnostic.py:768 | Inverting an update atom twice gives the atom back. |
| Datalog.DropUpdate | congress/policy_engines/agnostic.py:747 | `drop_update` removes the marker: re-marking the result gives back the update atom. |
| Datalog.DropMakeUpdate | congress/policy_engines/agnostic.py:747 | Dropping the marker undoes `make_update`. |
| Tablenames.ParseTablename | congress/policy_engines/agnostic.py:948-954 | With no `:`, the result is `(None, name)`. Otherwise the service is `:`-free and service + ":" + rest is the input. |
| Tablenames.ParseBuild | congress/policy_engines/agnostic.py:948-954 | Parsing `service:table` with a `:`-free service gives back both parts, even when the table contains `:`. |
| Tablenames.ParseInjective | congress/policy_engines/agnostic.py:948-954 | Distinct names never parse to the same pair. |
| Tablenames.ReservedMeansUnderscorePrefix | congress/policy_engines/agnostic.py:389-390 | A name is reserved iff it is `___` followed by anything. The service parsed from a reserved name that has one is itself reserved. |
| PolicyRuntime.DefaultAbbr | congress/policy_engines/agnostic.py:113-114 | `name[0:5]` is a prefix of the name, of length min(5, len(name)). |
| PolicyRuntime.PolicyClass | congress/policy_engines/agnostic.py:117-131 | `None` gives nonrecursive. A non-string has no `lower` (AttributeError). A string is lower-cased and selects the kind with that name, or raises PolicyException when no kind has it. |
| PolicyRuntime.CreatePolicy | congress/policy_engines/agnostic.py:102-135 | A non-string name fails with KeyError, as does a name already present; both leave the registry untouched. A bad kind fails with its error. On success exactly one key is added, every other entry is kept, and the abbreviation defaults to `name[0:5]`. |
| PolicyRuntime.DeletePolicy | congress/policy_engines/agnostic.py:137-143 | Succeeds iff the name is present, removing exactly that key and keeping the rest. Otherwise it fails with KeyError. |
| PolicyRuntime.RenamePolicy | congress/policy_engines/agnostic.py:145-155 | Succeeds iff `newname` is free and `oldname` present. The keys become keys − {old} ∪ {new}, with the same object under `newname`. Otherwise it fails with KeyError. |
| PolicyRuntime.GetTarget | congress/policy_engines/agnostic.py:187-198 | Without a name it returns the sole policy, or PolicyException with zero or several policies. With a name it returns that policy, or PolicyException when the name is unknown. |
| PolicyRuntime.SoleKey | congress/policy_engines/agnostic.py:189-190 | A one-entry registry has exactly one key. |
| PolicyRuntime.CreateThenDelete | congress/policy_engines/agnostic.py:134-141 | Deleting a freshly created policy restores the registry. |
| PolicyRuntime.RenameRoundTrip | congress/policy_engines/agnostic.py:145-155 | Renaming back undoes a successful rename. |
| PolicyRuntime.FirstPolicyIsDefaultTarget | congress/policy_engines/agnostic.py:187-198 | The only policy of a registry is `get_target(None)`. |
| PolicyRuntime.PolicyExistsTracksRegistry | congress/policy_engines/agnostic.py:159-161 | `policy_exists` holds after a create and not before it, stops holding after a delete, and moves from the old to the new name on a rename. Other names are unaffected. |
| RuntimeEvents.EventsFor | congress/policy_engines/agnostic.py:471-484 | A group holds only events of its target, is nonempty iff the target occurs, and is no longer than the input. |
| RuntimeEvents.TargetOrder | congress/policy_engines/agnostic.py:479-481 | Lists each target occurring in the events exactly once. |
| RuntimeEvents.GroupEventsByTarget | congress/policy_engines/agnostic.py:471-484 | The dictionary's keys are exactly the targets. Each value is the input's events for that target, in input order. |
| RuntimeEvents.GroupStep | congress/policy_engines/agnostic.py:479-483 | One loop iteration extends the grouping of a prefix to the grouping of the prefix plus one event. |
| RuntimeEvents.SnocUnfolds | congress/policy_engines/agnostic.py:479-483 | Appending an event extends only its own target's group. |
| RuntimeEvents.EventsForCounts | congress/policy_engines/agnostic.py:471-484 | A group contains each event of its target as often as the input does, and no other event. |
| RuntimeEvents.GroupingIsPartition | congress/policy_engines/agnostic.py:471-484 | Every event lands, with its full multiplicity, in its own target's group and in no other. |
| RuntimeEvents.ResolveConflicts | congress/policy_engines/agnostic.py:754-770 | An atom is kept iff it is present and, when it is a deletion, its insertion inverse is absent. No kept deletion has its inverse kept. |
| RuntimeEvents.SimulateDelta | congress/policy_engines/agnostic.py:582-589 | `p+` is reported iff p is a new answer, `p-` iff p is a lost answer, and nothing else is reported. |
| RuntimeEvents.SimulateDeltaRoundTrip | congress/policy_engines/agnostic.py:582-589 | Applying the delta to the old answers yields the new answers. |
| RuntimeUpdate.ResolveTargets | congress/policy_engines/agnostic.py:451-452 | Every target is looked up with `get_target`. The first failure is the PolicyException raised. |
| RuntimeUpdate.CollectErrors | congress/policy_engines/agnostic.py:451-453 | The collected errors are exactly the errors the target policies report for their own groups; none are collected iff no policy objects. |
| RuntimeUpdate.Deliveries | congress/policy_engines/agnostic.py:466-468 | One `update` call per target, to that target's policy, with either its own group or every event. |
| RuntimeUpdate.UpdateObjAsWritten | congress/policy_engines/agnostic.py:438-469 | As written: permitted iff no policy objects and the graph change is acyclic. The graph update is undone only on a cycle. A refusal returns every objection, plus PolicyException on a cycle. A permitted update calls every target's policy exactly once, hands it all the events, and returns the changes those calls report. |
| RuntimeUpdate.UpdateObj | congress/policy_engines/agnostic.py:438-469 | All or nothing. It is permitted iff no policy objects and the graph change is acyclic. A refusal returns every objection, plus PolicyException on a cycle, updates no policy and restores the graph. A permitted update keeps the new graph, calls each target's policy exactly once with exactly its own events, and returns the changes those calls report. |
| RuntimeUpdate.NoErrorsIffNoObjection | congress/policy_engines/agnostic.py:449-464 | The collected errors are empty iff no target's policy objects to its group. |
| RuntimeUpdate.ErrorsAreObjections | congress/policy_engines/agnostic.py:449-453 | An exception is collected iff some target's policy reports it for that target's group. |
| RuntimeUpdate.DeliveriesCoverTargets | congress/policy_engines/agnostic.py:466-468 | The apply phase calls each target's policy exactly once (no two calls share a target), with that target's group when grouping is on and with every event otherwise. |
| RuntimeUpdate.EachEventDeliveredOnce | congress/policy_engines/agnostic.py:466-468 | Under the corrected gate each event is in exactly one delivery, the one to the target it names. |
| RuntimeUpdate.AsWrittenDeliversForeignEvents | congress/policy_engines/agnostic.py:468 | With two targets, policy `a` is handed the event addressed to `b`. |
| RuntimeUpdate.CorrectedDeliversOwnEvents | congress/policy_engines/agnostic.py:466-468 | On the same input, corrected, policy `a` receives only its own event. |
| RuntimeUpdate.AsWrittenKeepsGraphChangesOnRefusal | congress/policy_engines/agnostic.py:456-464 | When only a policy objects, the refusal returns with the dependency graph still changed. |
| RuntimeUpdate.CorrectedRestoresGraphOnRefusal | congress/policy_engines/agnostic.py:455-464 | Corrected, every refusal leaves the graph as it was and delivers nothing. |
| RuntimeUpdate.AsWrittenAndCorrectedAgreeOnVerdict | congress/policy_engines/agnostic.py:438-464 | The source and the corrected gate fail, permit and report errors alike; they differ only in the graph and the deliveries. |
| DseRuntime.UpdateTableSubscriptions | congress/policy_engines/agnostic.py:1055-1088 | Subscribes to (s, t) iff `s:t` is new and not reserved. Unsubscribes from (s, t) iff `s:t` disappeared. Names without a service are skipped. |
| DseRuntime.SubscriptionsFollowTables | congress/policy_engines/agnostic.py:1061-1088 | The old tables' subscriptions, minus those unsubscribed and plus those subscribed, equal the new tables' subscriptions. |
| DseRuntime.NeverSubscribed | congress/policy_engines/agnostic.py:1066-1085 | Reserved names and names without a service are never subscribed. Names without a service are never unsubscribed. |
| ExecutionLogging.Log | congress/policy_engines/agnostic.py:43-56 | Each level appends the formatted message and keeps the earlier ones. |
| ExecutionLogging.LevelIrrelevant | congress/policy_engines/agnostic.py:43-56 | All five levels record the same thing. |
| ExecutionLogging.Empty | congress/policy_engines/agnostic.py:61-62 | `empty` leaves no messages, so the content is the empty string and later logs start afresh. |
| ExecutionLogging.Content | congress/policy_engines/agnostic.py:58-59 | No messages give the empty string. When no message contains a newline, splitting the content on newlines gives back the messages. |
| ExecutionLogging.ContentAfterLog | congress/policy_engines/agnostic.py:58-59 | Logging one message adds it to the content on a line of its own. |
| Synchronizer.Delta | congress/synchronizer.py:60 | A time difference is normalised into days, seconds in [0, 86400) and microseconds in [0, 10^6) that add up to it. |
| Synchronizer.ElapsedSeconds | congress/synchronizer.py:60-61 | `seconds + days*86400` is the elapsed time rounded down to whole seconds. |
| Synchronizer.Init | congress/synchronizer.py:38-48 | `poll_time` comes from the arguments, or 0 when absent. No poll has happened yet. |
| Synchronizer.SetPollTime | congress/synchronizer.py:50-51 | Only the period changes. |
| Synchronizer.D6Run | congress/synchronizer.py:53-64 | A zero period never synchronizes. The first tick with a period does. Later ticks do iff the elapsed whole seconds exceed the period. The last poll time moves only when a synchronization runs. |
| Synchronizer.ZeroPeriodNeverSynchronizes | congress/synchronizer.py:42-54 | With `poll_time` 0, no run of ticks synchronizes or changes the state. |
| Synchronizer.SynchronizationsAreSpaced | congress/synchronizer.py:59-64 | Two synchronizations in a row are more than the period apart. |
| Synchronizer.Reconcile | congress/synchronizer.py:73-107 | Delete iff active and (disabled or `_config_eq` false). Add iff enabled and (inactive or `_config_eq` false). At most one call of each kind is made, and a reload deletes before it adds. |
| Synchronizer.ReconcileIsStable | congress/synchronizer.py:127-129 | `_config_eq` holds between a datasource row and the service started from it, so reconciling again after carrying out a decision does nothing. |
| Synchronizer.ReconcileSettles | congress/synchronizer.py:73-107 | Once one decision is carried out, the datasource runs with its stored config iff it is enabled. No other service changes. |
| Synchronizer.ReconcileAll | congress/synchronizer.py:73-107 | The first loop's cage is the result of carrying out its actions in order. Every add starts a configured datasource and every delete names a configured one. |
| Synchronizer.ApplyAppend | congress/synchronizer.py:73-107 | Carrying out two lists of actions one after the other is carrying out their concatenation. |
| Synchronizer.Unconfigured | congress/synchronizer.py:112-120 | Exactly the running services of type `datasource_driver` whose name is not configured. |
| Synchronizer.Synchronize | congress/synchronizer.py:66-125 | The removed names are exactly the unconfigured running drivers left after the first loop. They are never configured names. The final services are the result of carrying out the recorded manager calls in order, without the removed names. |
| Synchronizer.ReconcileAllSettles | congress/synchronizer.py:72-107 | The first loop settles every configured datasource and leaves unconfigured names alone. |
| Synchronizer.Converges | congress/synchronizer.py:66-125 | After `synchronize`, each enabled datasource runs with its stored config and each disabled one does not run. Every running driver is an enabled configured one. Other services are untouched. |
| GlanceV2Driver.ImagesSchemaWellFormed | congress/datasources/glancev2_driver.py:35-67 | The `images` HDICT lists the 18 VALUE columns in declared order, then the `tags` LIST (`tag`, `image_id`, keyed on `id`). `id` is one of the root's columns, and the declared tables are `images` and `tags`. |
| GlanceV2Driver.InitializeTables | congress/datasources/glancev2_driver.py:125-127 | `images` and `tags` become empty. Every other table is untouched. |
| GlanceV2Driver.DeclaredTablesInitialised | congress/datasources/glancev2_driver.py:125-127 | Every table declared by a schema in `TRANSLATORS` exists, empty, after initialisation. |
| GlanceV2Driver.AddRows | congress/datasources/glancev2_driver.py:122-123 | Adds each emitted row to its table. A table missing from the state raises KeyError. |
| GlanceV2Driver.TranslateImages | congress/datasources/glancev2_driver.py:112-123 | On success `images` and `tags` hold exactly the emitted rows. Nothing from before survives, and duplicates collapse. |
| GlanceV2Driver.Handle | congress/datasources/glancev2_driver.py:105-110 | Code 401 installs a fresh token and swallows the error. Any other code re-raises it. No code raises AttributeError. |
| GlanceV2Driver.UpdateFromDatasource | congress/datasources/glancev2_driver.py:91-110 | A 401 from the listing refreshes the token, leaves the tables alone and does not list again. Other errors propagate with no change. An exception from the translation engine goes through the same handler. A successful listing rebuilds `images` and `tags` from the emitted rows. |
| GlanceV2Driver.FullRefreshIdempotent | congress/datasources/glancev2_driver.py:119-123 | Repeating an update with the same listing changes nothing. |
| GlanceV2Driver.TablesDependOnlyOnEmittedRows | congress/datasources/glancev2_driver.py:119-123 | The rebuilt tables depend only on the set of emitted rows, not on their order or on the previous state. |
| VmPlacement.SetSubscriptions | congress/policy_engines/vm_placement.py:81-99 | Subscribes exactly to requested − current and unsubscribes exactly from current − requested, skipping pairs with no service. Each unsubscribed pair's qualified table is emptied, and nothing else is. |
| VmPlacement.SubscriptionsMatchRequest | congress/policy_engines/vm_placement.py:81-97 | Afterwards the subscriptions that have a service are exactly the requested ones. Pairs without a service, and pairs in both sets, are untouched. |
| VmPlacement.RequestedSubscriptions | congress/policy_engines/vm_placement.py:53-55 | Only tables that carry a service are requested, as their parsed (service, table) pairs. |
| VmPlacement.SetPolicy | congress/policy_engines/vm_placement.py:39-56 | Subscribes to (s, t) iff some rule mentions `s:t` and it is not yet subscribed. Unsubscribes from every current pair no rule mentions, and empties exactly the qualified tables it unsubscribes from. |
| VmPlacement.Route | congress/policy_engines/vm_placement.py:101-117 | The delta handler runs iff the data is nonempty and its first element is an event. Empty data goes to the full-table handler. |
| VmPlacement.Requalify | congress/policy_engines/vm_placement.py:147-153 | The new event's table is sender:table. Each argument's name is kept as a constant, in order. The insert flag is kept. |
| VmPlacement.RequalifyAll | congress/policy_engines/vm_placement.py:142-153 | Succeeds iff every element is an atom event, giving one rewritten event per element in order. Otherwise it raises the error of the first bad element: AttributeError for a row, AssertionError for a non-atom. |
| VmPlacement.ReceiveDataUpdate | congress/policy_engines/vm_placement.py:137-157 | A refused update raises CongressException. A permitted one records the changes the theory reports, which the source only logs before returning `None`. Rewriting errors propagate. |
| VmPlacement.ReceiveDataFull | congress/policy_engines/vm_placement.py:119-132 | The whole table is reloaded under sender:dataindex, which parses back to its two parts. |
| VmPlacement.ReceiveData | congress/policy_engines/vm_placement.py:101-117 | Each message goes to exactly one handler, as `Route` decides. |
| VmPlacement.RequalifyRoundTrip | congress/policy_engines/vm_placement.py:147-151 | Parsing a rewritten table name gives back the sender and the original table. |
| VmPlacement.DeltaKeepsOrderAndSender | congress/policy_engines/vm_placement.py:142-154 | A delta of atom events reaches the theory in order, each under the sender's name with its insert flag. |

## Left out

- Datalog evaluation is not modelled: `select`, `simulate`/`project`, `explain`, `remediate`, `abduce` and theory `update`. It lives in `congress.datalog`, which is not part of this model. The theory's verdicts enter as function parameters.
- The `Datalog` module's atoms and `make_update`/`invert_update`/`drop_update` follow the behaviour their call sites rely on (`congress/datalog/compile.py` is not part of this model). `invert_update` is taken to swap a final `+`/`-`.
- The four kind names (`nonrecursive`, `action`, `database`, `materialized`) come from `congress/datalog/base.py`, which is not part of this model.
- `Strings.Lower`: lower-cases ASCII letters only. This is exact for comparisons against the four ASCII kind names, except for non-ASCII characters whose Unicode lower case is ASCII.
- `policy_type`, `policy_names` and `policy_object` are not modelled. They are plain lookups, and `policy_type` depends on the theory class hierarchy.
- Tracers, logging calls and `table_log` are not modelled, nor is file I/O (`dump_dir`, `load_dir`, ...).
- `RuntimeEvents.GroupEventsByTarget`: Python 2 dictionaries have no defined iteration order. The model iterates targets in order of first appearance, which is one of the orders the source allows.
- `RuntimeEvents.SimulateDelta`: returns a set, whereas the source returns the list `pos + neg`. Its order follows unordered sets.
- `actual_events` in `_update_obj` is collected but never used, so it is not modelled.
- `RuntimeUpdate.UpdateObj`: the dependency graph's `formula_update` and `has_cycle` are parameters. `undo_changes` is not: undoing is modelled as restoring the graph from before the call.
- `VmPlacement`: `compile.parse_tablename` and `compile.build_tablename` (`congress/datalog/compile.py`, not part of this model) are taken to behave like `parse_tablename` in `congress/policy_engines/agnostic.py:948-954` and like `service + ":" + table`.
- `VmPlacement.Route`: the source takes any element with `iter(data).next()`, and a full table may arrive as a set. The model reads the first element of a sequence.
- `ExecutionLogging.Log`: `msg % args` formatting is not modelled; the model receives the formatted message. A `TypeError` from arguments that do not match the format is not modelled.
- Subscribing and unsubscribing on the message bus (`DseRuntime`, `VmPlacement`) are modelled as the calls made. Delivery and callbacks are not modelled.
- `DseRuntime.UpdateTableSubscriptions`: the unsubscribe loop does not test for reserved names. The model follows the source, so a reserved service table that disappears is unsubscribed.
- `Synchronizer.Init`: `int(args['poll_time'])` parsing is not modelled; the argument is already an integer.
- `Synchronizer.D6Run`: `datetime.now()` is two integer clock readings in microseconds, one before and one after `synchronize`.
- `Synchronizer.Synchronize`: several details are not modelled:
  - the datasource manager and the cage are an ideal map;
  - deleting a service also deleting its engine policy is reported as the set of removed names;
  - a `KeyError` from `engine.delete_policy` is not modelled;
  - which service `cage.service_object` returns for a name is taken to be the running service under that name.
- `Synchronizer.Converges`: assumes distinct configured names and a cage where each service sits under its own name. The source does not enforce either.
- Keystone and Glance client construction, `get_datasource_info` and the HTTP listing are not modelled. The listing enters as its outcome and the fresh token as a parameter.
- `GlanceV2Driver.UpdateFromDatasource`: `convert_objs` is a parameter, because the generic translation engine is not part of this model. The exact-rows property assumes it emits only tables its schema declares.
- `VmPlacement.SetPolicy`: emptying the old policy (`empty(..., invert=True)`) and inserting the parsed rules are not modelled, because they act on a theory that is not part of this model. The rules and their `tablenames` are parameters.
- `VmPlacement.ReceiveDataUpdate`: the source logs the changes of a permitted update and returns `None`. The model returns those changes instead of logging them.
- `VmPlacement.ReceiveDataFull`: building facts from full-table rows and `initialize_tables` belong to the theory. The model records which table is reloaded and with which data.
- Message data that is neither an event nor a row is not modelled.
- `debug_mode`, `production_mode`, `insert`, `delete` and `select` of the placement engine are not modelled. They forward to the theory.

## Findings

| source | as written | input that shows it | evidently intended | confidence | as-written member | corrected member |
|---|---|---|---|---|---|---|
| congress/policy_engines/agnostic.py:468 | The apply loop passes `events` (every event) to each target's `update`. | Policies `a` and `b`, events `[e_a, e_b]` addressed to `a` and `b`: policy `a` is updated with `e_b` as well. | Each target receives `th_events`, its own group. | not executed | RuntimeUpdate.AsWrittenDeliversForeignEvents | RuntimeUpdate.CorrectedDeliversOwnEvents |
| congress/policy_engines/agnostic.py:456-464 | The dependency-graph changes are undone only when a cycle is found. | A policy objects to an event whose rules change the graph without a cycle: `(False, errors)` is returned with the graph still changed. | A refused update undoes the graph changes, as the comment on line 455 says. | not executed | RuntimeUpdate.AsWrittenKeepsGraphChangesOnRefusal | RuntimeUpdate.UpdateObj |

=== FILE: datalog.dfy ===
/** The Datalog vocabulary the policy engine hands around: terms, atoms,
    formulas and update events. Only their shape is modelled; evaluation
    (select, simulate, explain, ...) belongs to theories this model keeps
    opaque. */
module Datalog {
  import opened Wrappers

  datatype Term = Variable(name: string) | Constant(name: string)

  /** `table(arguments...)`; an update atom's table ends in `+` or `-`. */
  datatype Atom = Atom(table: string, arguments: seq<Term>)

  datatype Formula = AtomFormula(atom: Atom) | Rule(head: Atom, body: seq<Atom>)

  /** An insertion (`insert`) or deletion of a formula, addressed to the
      policy named `target` (None when the event names no policy). */
  datatype Event = Event(formula: Formula, insert: bool, target: Option<string>)

  /** A ground atom over the given constant names. */
  function Fact(table: string, values: seq<string>): (a: Atom)
    ensures a.table == table && |a.arguments| == |values|
    ensures forall i :: 0 <= i < |values| ==> a.arguments[i] == Constant(values[i])
  {
    Atom(table, seq(|values|, i requires 0 <= i < |values| => Constant(values[i])))
  }

  predicate EndsWith(s: string, c: char) {
    |s| > 0 && s[|s| - 1] == c
  }

  /** An insertion update atom `p+(...)`. */
  predicate IsPlus(a: Atom) {
    EndsWith(a.table, '+')
  }

  /** A deletion update atom `p-(...)`. */
  predicate IsMinus(a: Atom) {
    EndsWith(a.table, '-')
  }

  /** `make_update`: `p(args)` becomes `p+(args)` or `p-(args)`. */
  function MakeUpdate(a: Atom, isInsert: bool): (u: Atom)
    ensures isInsert ==> IsPlus(u) && !IsMinus(u)
    ensures !isInsert ==> IsMinus(u) && !IsPlus(u)
    ensures u.arguments == a.arguments
  {
    Atom(a.table + [if isInsert then '+' else '-'], a.arguments)
  }

  /** `drop_update`: the plain atom an update atom talks about. */
  function DropUpdate(u: Atom): (a: Atom)
    requires IsPlus(u) || IsMinus(u)
    ensures MakeUpdate(a, IsPlus(u)) == u
  {
    Atom(u.table[..|u.table| - 1], u.arguments)
  }

  /** `invert_update`: `p+(args)` and `p-(args)` are each other's inverse;
      a non-update atom is its own inverse. */
  function InvertUpdate(a: Atom): (b: Atom)
    ensures IsPlus(a) ==> IsMinus(b) && !IsPlus(b)
    ensures IsMinus(a) ==> IsPlus(b) && !IsMinus(b)
    ensures IsPlus(a) || IsMinus(a) ==> DropUpdate(b) == DropUpdate(a)
    ensures !IsPlus(a) && !IsMinus(a) ==> b == a
    ensures b.arguments == a.arguments
  {
    if IsPlus(a) || IsMinus(a) then
      var stem := a.table[..|a.table| - 1];
      assert stem + [a.table[|a.table| - 1]] == a.table;
      Atom(stem + [if IsPlus(a) then '-' else '+'], a.arguments)
    else a
  }

  /** Inverting twice gives back the atom. */
  lemma InvertInvolutive(a: Atom)
    ensures InvertUpdate(InvertUpdate(a)) == a
  {
    if IsPlus(a) || IsMinus(a) {
      assert a.table[..|a.table| - 1] + [a.table[|a.table| - 1]] == a.table;
      var b := InvertUpdate(a);
      assert b.table[..|b.table| - 1] == a.table[..|a.table| - 1];
    }
  }

  /** Dropping the update marker undoes `MakeUpdate`. */
  lemma DropMakeUpdate(a: Atom, isInsert: bool)
    ensures DropUpdate(MakeUpdate(a, isInsert)) == a
  {
    assert (a.table + [if isInsert then '+' else '-'])[..|a.table|] == a.table;
  }
}

=== FILE: dse_runtime.dfy ===
/** The data-routing side of the policy engine on the message bus
    (`DseRuntime`): when the set of tables the policies mention changes, the
    engine subscribes to the datasource tables that appeared and
    unsubscribes from those that disappeared. */
module DseRuntime {
  import opened Wrappers
  import opened Tablenames

  /** A subscription names a datasource service and one of its tables. */
  type Subscription = (string, string)

  /** The `subscribe` and `unsubscribe` calls one update makes. */
  datatype SubscriptionChange = SubscriptionChange(subscribe: set<Subscription>, unsubscribe: set<Subscription>)

  /** The subscription a qualified table name asks for, if it has a service. */
  predicate HasService(table: string) {
    ParseTablename(table).0.Some?
  }

  function SubscriptionOf(table: string): Subscription
    requires HasService(table)
  {
    (ParseTablename(table).0.value, ParseTablename(table).1)
  }

  /** `update_table_subscriptions`: subscribe to the service tables among
      `newtables - oldtables` that are not reserved, unsubscribe from the
      service tables among `oldtables - newtables`. */
  function UpdateTableSubscriptions(oldtables: set<string>, newtables: set<string>): (r: SubscriptionChange)
    ensures forall s, t :: (s, t) in r.subscribe <==>
      ':' !in s && BuildTablename(s, t) in newtables - oldtables && !ReservedTablename(BuildTablename(s, t))
    ensures forall s, t :: (s, t) in r.unsubscribe <==>
      ':' !in s && BuildTablename(s, t) in oldtables - newtables
  {
    var add := newtables - oldtables;
    var rem := oldtables - newtables;
    var r := SubscriptionChange(
      set table | table in add && !ReservedTablename(table) && HasService(table) :: SubscriptionOf(table),
      set table | table in rem && HasService(table) :: SubscriptionOf(table));
    forall s, t | ':' !in s ensures SubscriptionOf(BuildTablename(s, t)) == (s, t) && HasService(BuildTablename(s, t)) {
      ParseBuild(s, t);
    }
    r
  }

  /** The subscriptions a set of policy tables calls for. */
  function Wanted(tables: set<string>): set<Subscription> {
    set table | table in tables && !ReservedTablename(table) && HasService(table) :: SubscriptionOf(table)
  }

  /** Applying the calls of one update to the subscriptions the old tables
      called for yields exactly the subscriptions the new tables call for. */
  lemma {:induction false} SubscriptionsFollowTables(oldtables: set<string>, newtables: set<string>)
    ensures var r := UpdateTableSubscriptions(oldtables, newtables);
      (Wanted(oldtables) - r.unsubscribe) + r.subscribe == Wanted(newtables)
  {
    var r := UpdateTableSubscriptions(oldtables, newtables);
    forall p | p in (Wanted(oldtables) - r.unsubscribe) + r.subscribe ensures p in Wanted(newtables) {
      if p in r.subscribe {
        ParseBuild(p.0, p.1);
        assert SubscriptionOf(BuildTablename(p.0, p.1)) == p;
      } else {
        var table :| table in oldtables && !ReservedTablename(table) && HasService(table) && SubscriptionOf(table) == p;
        assert BuildTablename(p.0, p.1) == table;
        assert table in newtables;
      }
    }
    forall p | p in Wanted(newtables) ensures p in (Wanted(oldtables) - r.unsubscribe) + r.subscribe {
      var table :| table in newtables && !ReservedTablename(table) && HasService(table) && SubscriptionOf(table) == p;
      assert BuildTablename(p.0, p.1) == table;
      if table in oldtables {
        assert p in Wanted(oldtables);
      }
    }
  }

  /** Reserved names and names without a service are never subscribed;
      names without a service are never unsubscribed. */
  lemma NeverSubscribed(oldtables: set<string>, newtables: set<string>, table: string)
    requires ReservedTablename(table) || ':' !in table
    ensures forall s, t :: BuildTablename(s, t) == table ==>
      (s, t) !in UpdateTableSubscriptions(oldtables, newtables).subscribe
    ensures ':' !in table ==> forall s, t :: BuildTablename(s, t) == table ==>
      (s, t) !in UpdateTableSubscriptions(oldtables, newtables).unsubscribe
  {
    forall s, t | BuildTablename(s, t) == table ensures ':' in table {
      assert table[|s|] == ':';
    }
  }
}

=== FILE: execution_logger.dfy ===
/** `ExecutionLogger`: records every message it is given, whatever its
    level, and renders them one per line. The logger formats each message
    with `msg % args`; that formatting is not modelled, so the model receives
    the formatted message. */
module ExecutionLogging {
  import opened Strings

  datatype Level = Debug | Info | Warn | Error | Critical

  datatype ExecutionLogger = ExecutionLogger(messages: seq<string>)

  /** A fresh logger holds no messages. */
  const Fresh: ExecutionLogger := ExecutionLogger([])

  /** `debug`, `info`, `warn`, `error` and `critical`: all five append the
      formatted message. */
  function Log(logger: ExecutionLogger, level: Level, formatted: string): (r: ExecutionLogger)
    ensures |r.messages| == |logger.messages| + 1
    ensures r.messages[..|logger.messages|] == logger.messages
    ensures r.messages[|logger.messages|] == formatted
  {
    ExecutionLogger(logger.messages + [formatted])
  }

  /** `content`: the messages joined by newlines. No messages give the empty
      string; when no message spans several lines, the content splits back
      into exactly the logged messages. */
  function Content(logger: ExecutionLogger): (r: string)
    ensures logger.messages == [] ==> r == ""
    ensures logger.messages != [] && (forall i :: 0 <= i < |logger.messages| ==> '\n' !in logger.messages[i]) ==>
      Split(r, '\n') == logger.messages
  {
    var r := Join('\n', logger.messages);
    assert logger.messages != [] && (forall i :: 0 <= i < |logger.messages| ==> '\n' !in logger.messages[i]) ==>
      Split(r, '\n') == logger.messages by {
      if logger.messages != [] && forall i :: 0 <= i < |logger.messages| ==> '\n' !in logger.messages[i] {
        SplitJoin('\n', logger.messages);
      }
    }
    r
  }

  /** `empty`: forget every message. */
  function Empty(logger: ExecutionLogger): (r: ExecutionLogger)
    ensures r.messages == []
    ensures Content(r) == ""
  {
    Fresh
  }

  /** Logging one message extends the content by that message on a line of
      its own. */
  lemma ContentAfterLog(logger: ExecutionLogger, level: Level, formatted: string)
    ensures Content(Log(logger, level, formatted)) ==
      if logger.messages == [] then formatted else Content(logger) + "\n" + formatted
  {
    JoinSnoc('\n', logger.messages, formatted);
  }

  /** The level never matters to what is recorded. */
  lemma LevelIrrelevant(logger: ExecutionLogger, l1: Level, l2: Level, formatted: string)
    ensures Log(logger, l1, formatted) == Log(logger, l2, formatted)
  {
  }
}

=== FILE: glancev2_driver.dfy ===
/** The Glance (image service) datasource driver: a declarative translator
    schema for images and their tags, and a full-refresh update that
    rebuilds the `images` and `tags` tables from the rows the generic
    translation engine emits, refreshing the credential when the image
    listing is refused with HTTP 401.

    The image listing (a remote call) and the generic translation engine
    (`convert_objs`) are not part of this model: the listing enters as its
    outcome, the engine as a function parameter. */
module GlanceV2Driver {
  import opened Wrappers
  import opened Exceptions

  /** A scalar cell of a table row. */
  datatype Scalar = Null | Str(s: string) | Int(i: int) | Bool(b: bool)

  /** An untyped object as the remote API returns it. */
  datatype Raw = RawScalar(v: Scalar) | RawDict(fields: map<string, Raw>) | RawList(items: seq<Raw>)

  type Row = seq<Scalar>

  /** How an HDICT node picks its sub-objects. */
  datatype SelectorType = DictSelector | DotSelector

  /** A translator schema node: a scalar value, a horizontal dictionary
      producing one row per object, or a list producing one row per element
      tied to its parent by a key column. */
  datatype Translator =
    | Value
    | HDict(tableName: string, selectorType: SelectorType, fieldTranslators: seq<FieldTranslator>)
    | List(tableName: string, valCol: string, parentKey: string, parentColName: string, translator: Translator)

  datatype FieldTranslator = FieldTranslator(fieldname: string, translator: Translator)

  const IMAGES: string := "images"
  const TAGS: string := "tags"

  /** The image columns, in declared order. */
  const ImageColumns: seq<string> := [
    "id", "status", "name", "container_format", "created_at", "updated_at",
    "disk_format", "owner", "protected", "min_ram", "min_disk", "checksum",
    "size", "file", "kernel_id", "ramdisk_id", "schema", "visibility"]

  const TagsTranslator: Translator := List(TAGS, "tag", "id", "image_id", Value)

  /** One scalar column per entry of `ImageColumns`, then the tags list. */
  const ImagesTranslator: Translator := HDict(IMAGES, DictSelector,
    seq(|ImageColumns|, i requires 0 <= i < |ImageColumns| => FieldTranslator(ImageColumns[i], Value))
    + [FieldTranslator("tags", TagsTranslator)])

  /** `TRANSLATORS`. */
  const Translators: seq<Translator> := [ImagesTranslator]

  /** The tables a schema node declares, its own and its descendants'. */
  function DeclaredTables(t: Translator): set<string> {
    match t
    case Value => {}
    case HDict(name, _, fields) =>
      {name} + (set f, n | f in fields && n in DeclaredTables(f.translator) :: n)
    case List(name, _, _, _, child) => {name} + DeclaredTables(child)
  }

  /** The scalar columns of an HDICT node. */
  function ValueFields(fields: seq<FieldTranslator>): set<string> {
    set f | f in fields && f.translator.Value? :: f.fieldname
  }

  /** Every LIST child of an HDICT node draws its parent key from one of
      that node's scalar columns. */
  ghost predicate ParentKeysResolve(t: Translator) {
    t.HDict? ==> forall f :: f in t.fieldTranslators && f.translator.List? ==>
      f.translator.parentKey in ValueFields(t.fieldTranslators)
  }

  /** The image schema: an HDICT for `images` whose first eighteen fields
      are scalar columns in declared order, followed by the `tags` list,
      whose key `id` is one of those columns. */
  lemma ImagesSchemaWellFormed()
    ensures ImagesTranslator.HDict? && ImagesTranslator.tableName == IMAGES
    ensures |ImagesTranslator.fieldTranslators| == |ImageColumns| + 1 == 19
    ensures forall i :: 0 <= i < |ImageColumns| ==>
      ImagesTranslator.fieldTranslators[i] == FieldTranslator(ImageColumns[i], Value)
    ensures ImagesTranslator.fieldTranslators[18] == FieldTranslator("tags", TagsTranslator)
    ensures TagsTranslator.tableName == TAGS && TagsTranslator.valCol == "tag"
      && TagsTranslator.parentColName == "image_id" && TagsTranslator.parentKey == "id"
    ensures "id" in ValueFields(ImagesTranslator.fieldTranslators)
    ensures ParentKeysResolve(ImagesTranslator)
    ensures DeclaredTables(ImagesTranslator) == {IMAGES, TAGS}
  {
    var fields := ImagesTranslator.fieldTranslators;
    assert fields[0] == FieldTranslator("id", Value);
    forall f | f in fields ensures DeclaredTables(f.translator) <= {TAGS} {
      var i :| 0 <= i < |fields| && fields[i] == f;
      if i < |ImageColumns| {
        assert f.translator == Value;
      }
    }
    assert DeclaredTables(fields[18].translator) == {TAGS};
  }

  /** Table name to the set of rows published for it. */
  type State = map<string, set<Row>>

  /** The driver: its published tables and the credential its image client
      presents. */
  datatype Driver = Driver(state: State, token: string)

  /** `_initialize_tables`: empties `images` and `tags`, nothing else. */
  function InitializeTables(state: State): (r: State)
    ensures r.Keys == state.Keys + {IMAGES, TAGS}
    ensures r[IMAGES] == {} && r[TAGS] == {}
    ensures forall k :: k in state && k != IMAGES && k != TAGS ==> r[k] == state[k]
  {
    state[IMAGES := {}][TAGS := {}]
  }

  /** Every table the driver's schemas declare exists, empty, once the
      tables are initialised. */
  lemma DeclaredTablesInitialised(state: State)
    ensures forall t, name :: t in Translators && name in DeclaredTables(t) ==>
      name in InitializeTables(state) && InitializeTables(state)[name] == {}
  {
    ImagesSchemaWellFormed();
    forall t, name | t in Translators && name in DeclaredTables(t)
      ensures name in InitializeTables(state) && InitializeTables(state)[name] == {}
    {
      assert t == ImagesTranslator;
    }
  }

  /** The rows emitted for `table`. */
  function RowsFor(emitted: seq<(string, Row)>, table: string): set<Row> {
    set p | p in emitted && p.0 == table :: p.1
  }

  /** `self.state[table].add(row)` for each emitted pair in turn; a table
      the state does not hold raises `KeyError` and leaves the rows added
      so far in place. */
  function AddRows(state: State, emitted: seq<(string, Row)>): (r: (State, Option<Exception>))
    ensures r.0.Keys == state.Keys
    ensures r.1.None? <==> forall p :: p in emitted ==> p.0 in state
    ensures r.1.Some? ==> r.1.value == KeyError
    ensures r.1.None? ==> forall k :: k in state ==> r.0[k] == state[k] + RowsFor(emitted, k)
    decreases |emitted|
  {
    if |emitted| == 0 then (state, None)
    else
      var (table, row) := emitted[0];
      if table !in state then (state, Some(KeyError))
      else
        var r := AddRows(state[table := state[table] + {row}], emitted[1..]);
        assert forall p :: p in emitted <==> p == emitted[0] || p in emitted[1..];
        assert forall k :: RowsFor(emitted, k) == (if k == table then {row} else {}) + RowsFor(emitted[1..], k);
        r
  }

  /** `_translate_images`: re-initialise the tables, then add every emitted
      row. */
  function TranslateImages(state: State, emitted: seq<(string, Row)>): (r: (State, Option<Exception>))
    ensures r.0.Keys == state.Keys + {IMAGES, TAGS}
    ensures r.1.None? <==> forall p :: p in emitted ==> p.0 in state || p.0 == IMAGES || p.0 == TAGS
    ensures r.1.None? ==> r.0[IMAGES] == RowsFor(emitted, IMAGES) && r.0[TAGS] == RowsFor(emitted, TAGS)
    ensures r.1.None? ==> forall k :: k in state && k != IMAGES && k != TAGS ==>
      r.0[k] == state[k] + RowsFor(emitted, k)
  {
    AddRows(InitializeTables(state), emitted)
  }

  /** The translation engine: objects and a schema to (table, row) pairs,
      or the exception it raised. */
  type Engine = (seq<Raw>, Translator) -> Result<seq<(string, Row)>, Exception>

  /** The outcome of one update: the driver afterwards and the exception
      that escaped, if any. */
  datatype UpdateOutcome = UpdateOutcome(driver: Driver, raised: Option<Exception>)

  /** The `except` clause: code 401 installs the fresh credential and
      swallows the error; any other code re-raises it; an exception with no
      code raises `AttributeError` from the handler itself. */
  function Handle(d: Driver, e: Exception, freshToken: string): (r: UpdateOutcome)
    ensures Code(e) == Some(401) ==> r == UpdateOutcome(d.(token := freshToken), None)
    ensures Code(e).Some? && Code(e) != Some(401) ==> r == UpdateOutcome(d, Some(e))
    ensures Code(e).None? ==> r == UpdateOutcome(d, Some(AttributeError))
  {
    match Code(e)
    case Some(code) =>
      if code == 401 then UpdateOutcome(d.(token := freshToken), None)
      else UpdateOutcome(d, Some(e))
    case None => UpdateOutcome(d, Some(AttributeError))
  }

  /** `update_from_datasource`: list the images (or take the exception the
      listing raised), translate them and rebuild the tables. Errors are
      handled once; there is no second listing in the same call. */
  function UpdateFromDatasource(d: Driver, listing: Result<seq<Raw>, Exception>, engine: Engine, freshToken: string): (r: UpdateOutcome)
    ensures listing.Err? ==> r == Handle(d, listing.error, freshToken)
    ensures listing.Err? && Code(listing.error) == Some(401) ==>
      r.raised.None? && r.driver.state == d.state && r.driver.token == freshToken
    ensures listing.Err? && Code(listing.error) != Some(401) ==> r.driver == d && r.raised.Some?
    ensures listing.Ok? && engine(listing.value, ImagesTranslator).Err? ==>
      r == Handle(d, engine(listing.value, ImagesTranslator).error, freshToken)
    ensures listing.Ok? && engine(listing.value, ImagesTranslator).Ok? ==>
      var emitted := engine(listing.value, ImagesTranslator).value;
      (forall p :: p in emitted ==> p.0 in DeclaredTables(ImagesTranslator)) ==>
        && r.raised.None?
        && r.driver.token == d.token
        && r.driver.state.Keys == d.state.Keys + {IMAGES, TAGS}
        && r.driver.state[IMAGES] == RowsFor(emitted, IMAGES)
        && r.driver.state[TAGS] == RowsFor(emitted, TAGS)
        && forall k :: k in d.state && k != IMAGES && k != TAGS ==> r.driver.state[k] == d.state[k]
  {
    ImagesSchemaWellFormed();
    match listing
    case Err(e) => Handle(d, e, freshToken)
    case Ok(images) =>
      match engine(images, ImagesTranslator)
      case Err(e) => Handle(d, e, freshToken)
      case Ok(emitted) =>
        var (state', error) := TranslateImages(d.state, emitted);
        match error
        case None => UpdateOutcome(d.(state := state'), None)
        case Some(e) => Handle(d.(state := state'), e, freshToken)
  }

  /** Full refresh is idempotent: repeating a successful update with the
      same listing changes nothing, whatever the previous tables held. */
  lemma FullRefreshIdempotent(d: Driver, images: seq<Raw>, engine: Engine, freshToken: string)
    requires engine(images, ImagesTranslator).Ok?
    requires forall p :: p in engine(images, ImagesTranslator).value ==> p.0 in DeclaredTables(ImagesTranslator)
    ensures var once := UpdateFromDatasource(d, Ok(images), engine, freshToken);
      UpdateFromDatasource(once.driver, Ok(images), engine, freshToken) == once
  {
    ImagesSchemaWellFormed();
    var once := UpdateFromDatasource(d, Ok(images), engine, freshToken);
    var twice := UpdateFromDatasource(once.driver, Ok(images), engine, freshToken);
    assert twice.driver.state == once.driver.state;
  }

  /** The published tables depend only on which rows were emitted, not on
      their order or repetition, nor on what the tables held before. */
  lemma TablesDependOnlyOnEmittedRows(d1: Driver, d2: Driver, e1: seq<(string, Row)>, e2: seq<(string, Row)>)
    requires forall p :: p in e1 <==> p in e2
    requires forall p :: p in e1 ==> p.0 == IMAGES || p.0 == TAGS
    ensures var s1 := TranslateImages(d1.state, e1).0;
      var s2 := TranslateImages(d2.state, e2).0;
      s1[IMAGES] == s2[IMAGES] && s1[TAGS] == s2[TAGS]
  {
    assert RowsFor(e1, IMAGES) == RowsFor(e2, IMAGES);
    assert RowsFor(e1, TAGS) == RowsFor(e2, TAGS);
  }
}

=== FILE: policy_runtime.dfy ===
/** The policy engine's registry: the map from policy name to policy object
    kept by `Runtime`, with its create, delete, rename, lookup and target
    disambiguation operations. A policy's Datalog content is opaque here:
    an object is identified by its name, abbreviation and kind. */
module PolicyRuntime {
  import opened Wrappers
  import opened Exceptions
  import opened Strings

  /** An untyped Python argument: `None`, a string, or anything else. */
  datatype PyValue = PyNone | PyStr(s: string) | PyOther

  /** The four datastructures a policy can be represented with. */
  datatype PolicyKind = Nonrecursive | Action | Database | Materialized

  const NONRECURSIVE_POLICY_TYPE: string := "nonrecursive"
  const ACTION_POLICY_TYPE: string := "action"
  const DATABASE_POLICY_TYPE: string := "database"
  const MATERIALIZED_POLICY_TYPE: string := "materialized"

  /** The kind name each policy class answers to. */
  function KindName(k: PolicyKind): string {
    match k
    case Nonrecursive => NONRECURSIVE_POLICY_TYPE
    case Action => ACTION_POLICY_TYPE
    case Database => DATABASE_POLICY_TYPE
    case Materialized => MATERIALIZED_POLICY_TYPE
  }

  /** A policy object as the registry sees it. */
  datatype Policy = Policy(name: string, abbr: string, kind: PolicyKind)

  /** `Runtime.theory`: policy name to policy object. */
  type Theories = map<string, Policy>

  /** `name[0:5]`: Python slicing clamps at the end of the string. */
  function DefaultAbbr(name: string): (abbr: string)
    ensures |abbr| == if |name| < 5 then |name| else 5
    ensures abbr <= name
  {
    if |name| < 5 then name else name[..5]
  }

  /** The policy class chosen for a `kind` argument: `None` means
      nonrecursive, a string is lower-cased and must name one of the four
      kinds, and anything else has no `lower` method. */
  function PolicyClass(kind: PyValue): (r: Result<PolicyKind, Exception>)
    ensures kind.PyNone? ==> r == Ok(Nonrecursive)
    ensures kind.PyOther? ==> r == Err(AttributeError)
    ensures kind.PyStr? && r.Ok? ==> KindName(r.value) == Lower(kind.s)
    ensures kind.PyStr? && r.Err? ==>
      r.error == PolicyException && forall k: PolicyKind :: KindName(k) != Lower(kind.s)
  {
    match kind
    case PyNone => Ok(Nonrecursive)
    case PyOther => Err(AttributeError)
    case PyStr(s) =>
      var lowered := Lower(s);
      if lowered == NONRECURSIVE_POLICY_TYPE then Ok(Nonrecursive)
      else if lowered == ACTION_POLICY_TYPE then Ok(Action)
      else if lowered == DATABASE_POLICY_TYPE then Ok(Database)
      else if lowered == MATERIALIZED_POLICY_TYPE then Ok(Materialized)
      else Err(PolicyException)
  }

  datatype Created = Created(theories: Theories, policy: Policy)

  /** `create_policy`: a string name not yet registered gets a new policy
      object, with the abbreviation defaulting to the name's first five
      characters; everything else fails without touching the registry. */
  function CreatePolicy(th: Theories, name: PyValue, abbr: PyValue, kind: PyValue): (r: Result<Created, Exception>)
    ensures !name.PyStr? ==> r == Err(KeyError)
    ensures name.PyStr? && name.s in th ==> r == Err(KeyError)
    ensures name.PyStr? && name.s !in th ==> (r.Ok? <==> PolicyClass(kind).Ok?)
    ensures r.Err? && name.PyStr? && name.s !in th ==> r.error == PolicyClass(kind).error
    ensures r.Ok? ==>
      && name.PyStr? && name.s !in th
      && r.value.theories.Keys == th.Keys + {name.s}
      && r.value.theories[name.s] == r.value.policy
      && (forall n :: n in th ==> r.value.theories[n] == th[n])
    ensures r.Ok? ==>
      && r.value.policy.name == name.s
      && r.value.policy.abbr == (if abbr.PyStr? then abbr.s else DefaultAbbr(name.s))
      && Ok(r.value.policy.kind) == PolicyClass(kind)
  {
    if !name.PyStr? then Err(KeyError)
    else if name.s in th then Err(KeyError)
    else
      var a := if abbr.PyStr? then abbr.s else DefaultAbbr(name.s);
      var k :- PolicyClass(kind);
      var p := Policy(name.s, a, k);
      Ok(Created(th[name.s := p], p))
  }

  /** `delete_policy`: removes exactly `name`, or raises `KeyError` when it
      is not registered. */
  function DeletePolicy(th: Theories, name: string): (r: Result<Theories, Exception>)
    ensures r.Ok? <==> name in th
    ensures r.Err? ==> r.error == KeyError
    ensures r.Ok? ==>
      && r.value.Keys == th.Keys - {name}
      && forall n :: n in r.value ==> r.value[n] == th[n]
  {
    if name in th then Ok(th - {name}) else Err(KeyError)
  }

  /** `rename_policy`: moves the object under `oldname` to `newname`; fails
      with `KeyError` and no change when `newname` is taken or `oldname`
      is missing. The object itself is not renamed. */
  function RenamePolicy(th: Theories, oldname: string, newname: string): (r: Result<Theories, Exception>)
    ensures r.Ok? <==> newname !in th && oldname in th
    ensures r.Err? ==> r.error == KeyError
    ensures r.Ok? ==>
      && r.value.Keys == th.Keys - {oldname} + {newname}
      && r.value[newname] == th[oldname]
      && forall n :: n in th && n != oldname ==> r.value[n] == th[n]
  {
    if newname in th then Err(KeyError)
    else if oldname !in th then Err(KeyError)
    else Ok(th[newname := th[oldname]] - {oldname})
  }

  /** `policy_exists`. */
  predicate PolicyExists(th: Theories, name: string) {
    name in th
  }

  /** `policy_exists` follows the registry operations: a created policy
      exists, a deleted one no longer does, and a rename moves existence
      from the old name to the new one; no other name changes. */
  lemma PolicyExistsTracksRegistry(th: Theories, name: string, other: string, abbr: PyValue, kind: PyValue)
    ensures CreatePolicy(th, PyStr(name), abbr, kind).Ok? ==>
      var th' := CreatePolicy(th, PyStr(name), abbr, kind).value.theories;
      PolicyExists(th', name) && !PolicyExists(th, name)
        && (other != name ==> (PolicyExists(th', other) <==> PolicyExists(th, other)))
    ensures DeletePolicy(th, name).Ok? ==>
      var th' := DeletePolicy(th, name).value;
      !PolicyExists(th', name) && PolicyExists(th, name)
        && (other != name ==> (PolicyExists(th', other) <==> PolicyExists(th, other)))
    ensures RenamePolicy(th, name, other).Ok? ==>
      var th' := RenamePolicy(th, name, other).value;
      PolicyExists(th', other) && !PolicyExists(th', name) && PolicyExists(th, name) && !PolicyExists(th, other)
  {
  }

  /** A registry with one entry has one key. */
  lemma SoleKey(th: Theories)
    requires |th| == 1
    ensures exists n :: th.Keys == {n}
    ensures forall n, m :: n in th && m in th ==> n == m
  {
    var n :| n in th;
    var rest := th.Keys - {n};
    assert |th.Keys| == |rest| + 1;
    assert rest == {};
    assert th.Keys == {n};
  }

  /** `get_target`: with no name, the sole policy if there is exactly one;
      with a name, the policy registered under it; `PolicyException`
      otherwise. */
  function GetTarget(th: Theories, name: Option<string>): (r: Result<Policy, Exception>)
    ensures r.Err? ==> r.error == PolicyException
    ensures name.Some? ==> (r.Ok? <==> name.value in th)
    ensures name.Some? && r.Ok? ==> r.value == th[name.value]
    ensures name.None? ==> (r.Ok? <==> |th| == 1)
    ensures name.None? && r.Ok? ==> exists n :: th == map[n := r.value]
  {
    match name
    case Some(n) => if n in th then Ok(th[n]) else Err(PolicyException)
    case None =>
      if |th| == 1 then
        SoleKey(th);
        var n :| n in th;
        assert th == map[n := th[n]];
        Ok(th[n])
      else Err(PolicyException)
  }

  /** Creating a policy and deleting it again restores the registry. */
  lemma CreateThenDelete(th: Theories, name: string, abbr: PyValue, kind: PyValue)
    requires CreatePolicy(th, PyStr(name), abbr, kind).Ok?
    ensures DeletePolicy(CreatePolicy(th, PyStr(name), abbr, kind).value.theories, name) == Ok(th)
  {
    var th' := CreatePolicy(th, PyStr(name), abbr, kind).value.theories;
    assert th' - {name} == th;
  }

  /** Renaming back undoes a rename. */
  lemma {:induction false} RenameRoundTrip(th: Theories, oldname: string, newname: string)
    requires RenamePolicy(th, oldname, newname).Ok?
    ensures RenamePolicy(RenamePolicy(th, oldname, newname).value, newname, oldname) == Ok(th)
  {
    var th' := RenamePolicy(th, oldname, newname).value;
    var back := th'[oldname := th'[newname]] - {newname};
    assert back.Keys == th.Keys;
    assert back == th;
  }

  /** The first policy of an empty registry becomes the default target. */
  lemma FirstPolicyIsDefaultTarget(name: string, abbr: PyValue, kind: PyValue)
    requires PolicyClass(kind).Ok?
    ensures var c := CreatePolicy(map[], PyStr(name), abbr, kind).value;
      GetTarget(c.theories, None) == Ok(c.policy)
  {
    var c := CreatePolicy(map[], PyStr(name), abbr, kind).value;
    assert c.theories == map[name := c.policy];
  }
}

=== FILE: runtime_events.dfy ===
/** Event and update-atom bookkeeping of the policy engine's `Runtime`:
    grouping events by target policy, resolving conflicting insert/delete
    updates, and the insert/delete delta a simulation reports. */
module RuntimeEvents {
  import opened Wrappers
  import opened Datalog

  /** The targets the events name. */
  function Targets(events: seq<Event>): set<Option<string>> {
    set e | e in events :: e.target
  }

  /** The events addressed to `target`, in input order: the group a
      dictionary keyed by target collects for it. */
  function EventsFor(events: seq<Event>, target: Option<string>): (group: seq<Event>)
    ensures |group| <= |events|
    ensures forall i :: 0 <= i < |group| ==> group[i].target == target
    ensures |group| > 0 <==> target in Targets(events)
  {
    if |events| == 0 then []
    else
      var last := events[|events| - 1];
      var front := events[..|events| - 1];
      assert events == front + [last];
      assert Targets(events) == Targets(front) + {last.target};
      EventsFor(front, target) + (if last.target == target then [last] else [])
  }

  /** The targets in order of first appearance, each once. */
  function TargetOrder(events: seq<Event>): (order: seq<Option<string>>)
    ensures forall i, j :: 0 <= i < j < |order| ==> order[i] != order[j]
    ensures forall t :: t in order <==> t in Targets(events)
  {
    if |events| == 0 then []
    else
      var last := events[|events| - 1];
      var front := events[..|events| - 1];
      assert events == front + [last];
      assert Targets(events) == Targets(front) + {last.target};
      var order := TargetOrder(front);
      if last.target in order then order else order + [last.target]
  }

  /** `byTarget` and `order` are the grouping of `prefix`. */
  ghost predicate Grouped(byTarget: map<Option<string>, seq<Event>>, order: seq<Option<string>>, prefix: seq<Event>) {
    && byTarget.Keys == Targets(prefix)
    && (forall t :: t in byTarget ==> byTarget[t] == EventsFor(prefix, t))
    && order == TargetOrder(prefix)
  }

  /** `group_events_by_target`: a dictionary from each target to the list
      of its events in input order; `order` is the order in which the
      targets were first met. */
  method GroupEventsByTarget(events: seq<Event>)
    returns (byTarget: map<Option<string>, seq<Event>>, order: seq<Option<string>>)
    ensures byTarget.Keys == Targets(events)
    ensures forall t :: t in byTarget ==> byTarget[t] == EventsFor(events, t)
    ensures order == TargetOrder(events)
  {
    byTarget := map[];
    order := [];
    var i := 0;
    while i < |events|
      invariant 0 <= i <= |events|
      invariant Grouped(byTarget, order, events[..i])
    {
      var e := events[i];
      assert events[..i + 1] == events[..i] + [e];
      var group := if e.target in byTarget then byTarget[e.target] else [];
      var order' := if e.target in byTarget then order else order + [e.target];
      GroupStep(byTarget, order, events[..i], e);
      byTarget, order := byTarget[e.target := group + [e]], order';
      i := i + 1;
    }
    assert events[..i] == events;
  }

  /** Appending one event to its target's list (and, for a new target, to
      the order) keeps the grouping exact. */
  lemma GroupStep(byTarget: map<Option<string>, seq<Event>>, order: seq<Option<string>>, prefix: seq<Event>, e: Event)
    requires Grouped(byTarget, order, prefix)
    ensures var group := if e.target in byTarget then byTarget[e.target] else [];
      var order' := if e.target in byTarget then order else order + [e.target];
      Grouped(byTarget[e.target := group + [e]], order', prefix + [e])
  {
    SnocUnfolds(prefix, e);
  }

  /** One more event extends its own group and, when its target is new,
      the target order. */
  lemma SnocUnfolds(front: seq<Event>, e: Event)
    ensures Targets(front + [e]) == Targets(front) + {e.target}
    ensures forall t :: EventsFor(front + [e], t) == EventsFor(front, t) + (if e.target == t then [e] else [])
    ensures TargetOrder(front + [e]) == if e.target in Targets(front) then TargetOrder(front) else TargetOrder(front) + [e.target]
  {
    var events := front + [e];
    assert events[..|events| - 1] == front;
  }

  /** The group for `target` holds each event addressed to `target` as
      often as the input does, and no other event. */
  lemma {:induction false} EventsForCounts(events: seq<Event>, target: Option<string>, e: Event)
    ensures multiset(EventsFor(events, target))[e] == if e.target == target then multiset(events)[e] else 0
  {
    if |events| > 0 {
      var last := events[|events| - 1];
      var front := events[..|events| - 1];
      assert events == front + [last];
      EventsForCounts(front, target, e);
    }
  }

  /** Every event lands in the group of its own target, as often as it
      occurs in the input, and in no other group. */
  lemma GroupingIsPartition(events: seq<Event>, e: Event, t: Option<string>)
    requires e in events
    ensures multiset(EventsFor(events, e.target))[e] == multiset(events)[e]
    ensures t != e.target ==> e !in EventsFor(events, t)
  {
    EventsForCounts(events, e.target, e);
    EventsForCounts(events, t, e);
  }

  /** `resolve_conflicts`: keeps the insertions and non-update atoms, and a
      deletion `p-(args)` only when the insertion `p+(args)` is absent. */
  method ResolveConflicts(atoms: seq<Atom>) returns (result: set<Atom>)
    ensures forall a :: a in result <==> a in atoms && (IsMinus(a) ==> InvertUpdate(a) !in atoms)
    ensures forall a :: a in result && IsMinus(a) ==> InvertUpdate(a) !in result
  {
    var neg: set<Atom> := {};
    result := {};
    var i := 0;
    while i < |atoms|
      invariant 0 <= i <= |atoms|
      invariant forall a :: a in result <==> a in atoms[..i] && !IsMinus(a)
      invariant forall a :: a in neg <==> a in atoms[..i] && IsMinus(a)
    {
      assert atoms[..i + 1] == atoms[..i] + [atoms[i]];
      var atom := atoms[i];
      if IsPlus(atom) {
        result := result + {atom};
      } else if IsMinus(atom) {
        neg := neg + {atom};
      } else {
        result := result + {atom};
      }
      i := i + 1;
    }
    assert atoms[..i] == atoms;
    var remaining := neg;
    while remaining != {}
      invariant remaining <= neg
      invariant forall a :: a in neg <==> a in atoms && IsMinus(a)
      invariant forall a :: a in result <==>
        (a in atoms && !IsMinus(a)) || (a in neg - remaining && InvertUpdate(a) !in atoms)
      decreases remaining
    {
      var atom :| atom in remaining;
      if InvertUpdate(atom) !in result {
        result := result + {atom};
      }
      remaining := remaining - {atom};
    }
  }

  /** The delta a simulation reports: `q+(...)` for each answer that
      appeared and `q-(...)` for each that disappeared. */
  function SimulateDelta(oldResult: set<Atom>, newResult: set<Atom>): (delta: set<Atom>)
    ensures forall u :: u in delta ==> IsPlus(u) || IsMinus(u)
    ensures forall a :: MakeUpdate(a, true) in delta <==> a in newResult && a !in oldResult
    ensures forall a :: MakeUpdate(a, false) in delta <==> a in oldResult && a !in newResult
  {
    var pos := set a | a in newResult - oldResult :: MakeUpdate(a, true);
    var neg := set a | a in oldResult - newResult :: MakeUpdate(a, false);
    forall a ensures MakeUpdate(a, true) in pos + neg ==> a in newResult - oldResult {
      if MakeUpdate(a, true) in pos {
        var b :| b in newResult - oldResult && MakeUpdate(b, true) == MakeUpdate(a, true);
        DropMakeUpdate(a, true);
        DropMakeUpdate(b, true);
      }
    }
    forall a ensures MakeUpdate(a, false) in pos + neg ==> a in oldResult - newResult {
      if MakeUpdate(a, false) in neg {
        var b :| b in oldResult - newResult && MakeUpdate(b, false) == MakeUpdate(a, false);
        DropMakeUpdate(a, false);
        DropMakeUpdate(b, false);
      }
    }
    pos + neg
  }

  /** Applying an update set to a set of answers: remove what the
      deletions name, add what the insertions name. */
  function ApplyDelta(state: set<Atom>, delta: set<Atom>): set<Atom> {
    var removed := set u | u in delta && IsMinus(u) :: DropUpdate(u);
    var added := set u | u in delta && IsPlus(u) :: DropUpdate(u);
    (state - removed) + added
  }

  /** The reported delta takes the answers before the simulated sequence
      to the answers after it. */
  lemma {:induction false} SimulateDeltaRoundTrip(oldResult: set<Atom>, newResult: set<Atom>)
    ensures ApplyDelta(oldResult, SimulateDelta(oldResult, newResult)) == newResult
  {
    var delta := SimulateDelta(oldResult, newResult);
    var removed := set u | u in delta && IsMinus(u) :: DropUpdate(u);
    var added := set u | u in delta && IsPlus(u) :: DropUpdate(u);
    forall a | a in newResult - oldResult ensures a in added {
      DropMakeUpdate(a, true);
      assert MakeUpdate(a, true) in delta;
    }
    forall a | a in oldResult - newResult ensures a in removed {
      DropMakeUpdate(a, false);
      assert MakeUpdate(a, false) in delta;
    }
    forall a | a in added ensures a in newResult {
      var u :| u in delta && IsPlus(u) && DropUpdate(u) == a;
      assert MakeUpdate(a, true) == u;
    }
    forall a | a in removed ensures a !in newResult {
      var u :| u in delta && IsMinus(u) && DropUpdate(u) == a;
      assert MakeUpdate(a, false) == u;
    }
    assert ApplyDelta(oldResult, delta) == (oldResult - removed) + added;
  }
}

=== FILE: runtime_update.dfy ===
/** `Runtime._update_obj`: the all-or-nothing gate in front of every change
    to the policies. Events are grouped by target policy; every target
    policy is asked whether its events would cause errors; the global rule
    dependency graph is updated and checked for recursion; only when nothing
    objects are the events handed to the policies.

    The theories' own checks and updates and the dependency graph are code
    this model does not see, so they enter as the `Collaborators` record of
    functions. Two versions are given: `UpdateObjAsWritten` keeps the
    source's two defects, which the lemmas at the end exhibit, and
    `UpdateObj` corrects them. Both look up every target before asking any
    policy for its errors, and neither keeps the `actual_events` list the
    source builds but never uses. */
module RuntimeUpdate {
  import opened Wrappers
  import opened Exceptions
  import opened Datalog
  import opened PolicyRuntime
  import opened RuntimeEvents

  /** The global rule dependency graph, as a set of table-to-table edges. */
  datatype DepGraph = DepGraph(edges: set<(string, string)>)

  datatype Collaborators = Collaborators(
    /** `update_would_cause_errors` of a policy for its events. */
    wouldCauseErrors: (Policy, seq<Event>) -> seq<Exception>,
    /** `formula_update`: the updated graph and the list of changes made. */
    formulaUpdate: (DepGraph, seq<Event>) -> (DepGraph, seq<Event>),
    /** `has_cycle`. */
    hasCycle: DepGraph -> bool,
    /** A policy's `update`: the changes applying the events made. */
    theoryUpdate: (Policy, seq<Event>) -> seq<Event>)

  /** One call of a policy's `update`: the target it was looked up under and
      the events it was given. */
  datatype Delivery = Delivery(target: Option<string>, policy: Policy, events: seq<Event>)

  /** `(permitted, errors-or-changes)`, together with the dependency graph
      after the call and the `update` calls the policies received. */
  datatype UpdateOutcome = UpdateOutcome(
    permitted: bool,
    errors: seq<Exception>,
    changes: seq<Event>,
    graph: DepGraph,
    delivered: seq<Delivery>)

  /** Looks up every target with `get_target`; the first failure is raised. */
  function ResolveTargets(th: Theories, order: seq<Option<string>>): (r: Result<seq<Policy>, Exception>)
    ensures r.Ok? <==> forall i :: 0 <= i < |order| ==> GetTarget(th, order[i]).Ok?
    ensures r.Err? ==> r.error == PolicyException
    ensures r.Ok? ==>
      && |r.value| == |order|
      && forall i :: 0 <= i < |order| ==> GetTarget(th, order[i]) == Ok(r.value[i])
  {
    if |order| == 0 then Ok([])
    else
      var p :- GetTarget(th, order[0]);
      var rest :- ResolveTargets(th, order[1..]);
      assert forall i :: 1 <= i < |order| ==> order[i] == order[1..][i - 1];
      Ok([p] + rest)
  }

  /** The errors the policies report, target by target. */
  function CollectErrors(env: Collaborators, policies: seq<Policy>, order: seq<Option<string>>, events: seq<Event>): (errors: seq<Exception>)
    requires |policies| == |order|
    ensures errors == [] <==> forall i :: 0 <= i < |order| ==> env.wouldCauseErrors(policies[i], EventsFor(events, order[i])) == []
    ensures forall x :: x in errors <==>
      exists i :: 0 <= i < |order| && x in env.wouldCauseErrors(policies[i], EventsFor(events, order[i]))
  {
    if |order| == 0 then []
    else
      var first := env.wouldCauseErrors(policies[0], EventsFor(events, order[0]));
      var rest := CollectErrors(env, policies[1..], order[1..], events);
      assert forall i :: 1 <= i < |order| ==> policies[i] == policies[1..][i - 1] && order[i] == order[1..][i - 1];
      first + rest
  }

  /** The dependency-graph update adds a change and leaves a cycle. */
  predicate Recursive(env: Collaborators, graph: DepGraph, events: seq<Event>) {
    var (graph1, graphChanges) := env.formulaUpdate(graph, events);
    |graphChanges| > 0 && env.hasCycle(graph1)
  }

  /** `x` is one of the errors some target policy reports for its own events. */
  predicate Objection(th: Theories, env: Collaborators, events: seq<Event>, x: Exception) {
    exists t :: t in Targets(events) && GetTarget(th, t).Ok?
      && x in env.wouldCauseErrors(GetTarget(th, t).value, EventsFor(events, t))
  }

  /** The `update` calls of the apply phase: each target's policy gets its
      own group when `ownGroup` holds, and the whole event list otherwise. */
  function Deliveries(policies: seq<Policy>, order: seq<Option<string>>, events: seq<Event>, ownGroup: bool): (ds: seq<Delivery>)
    requires |policies| == |order|
    ensures |ds| == |order|
    ensures forall i :: 0 <= i < |order| ==>
      ds[i] == Delivery(order[i], policies[i], if ownGroup then EventsFor(events, order[i]) else events)
  {
    if |order| == 0 then []
    else
      [Delivery(order[0], policies[0], if ownGroup then EventsFor(events, order[0]) else events)]
      + Deliveries(policies[1..], order[1..], events, ownGroup)
  }

  /** The changes the delivered `update` calls report, concatenated. */
  function Changes(env: Collaborators, ds: seq<Delivery>): seq<Event> {
    if |ds| == 0 then []
    else env.theoryUpdate(ds[0].policy, ds[0].events) + Changes(env, ds[1..])
  }

  /** The source as written: the dependency-graph changes are undone only
      when they create a cycle, and every policy's `update` receives the
      whole event list. */
  function UpdateObjAsWritten(th: Theories, graph: DepGraph, events: seq<Event>, env: Collaborators): (r: Result<UpdateOutcome, Exception>)
    ensures r.Ok? <==> forall t :: t in Targets(events) ==> GetTarget(th, t).Ok?
    ensures r.Err? ==> r.error == PolicyException
    ensures r.Ok? ==> (r.value.permitted <==>
      && (forall t :: t in Targets(events) ==> env.wouldCauseErrors(GetTarget(th, t).value, EventsFor(events, t)) == [])
      && !Recursive(env, graph, events))
    ensures r.Ok? ==>
      r.value.graph == if Recursive(env, graph, events) then graph else env.formulaUpdate(graph, events).0
    ensures r.Ok? && !r.value.permitted ==>
      && r.value.delivered == [] && r.value.changes == []
      && forall x :: x in r.value.errors <==>
           Objection(th, env, events, x) || (x == PolicyException && Recursive(env, graph, events))
    ensures r.Ok? && r.value.permitted ==>
      && r.value.errors == []
      && r.value.changes == Changes(env, r.value.delivered)
      && (forall t :: t in Targets(events) <==> exists d :: d in r.value.delivered && d.target == t)
      && (forall i, j :: 0 <= i < j < |r.value.delivered| ==> r.value.delivered[i].target != r.value.delivered[j].target)
      && forall d :: d in r.value.delivered ==> GetTarget(th, d.target) == Ok(d.policy) && d.events == events
  {
    var order := TargetOrder(events);
    var policies :- ResolveTargets(th, order);
    var errors := CollectErrors(env, policies, order, events);
    var (graph1, graphChanges) := env.formulaUpdate(graph, events);
    var recursive := |graphChanges| > 0 && env.hasCycle(graph1);
    var graph2 := if recursive then graph else graph1;
    var errors' := errors + (if recursive then [PolicyException] else []);
    NoErrorsIffNoObjection(th, env, policies, order, events);
    ErrorsAreObjections(th, env, policies, order, events);
    if |errors'| > 0 then
      Ok(UpdateOutcome(false, errors', [], graph2, []))
    else
      var ds := Deliveries(policies, order, events, false);
      DeliveriesCoverTargets(th, policies, order, events, false);
      Ok(UpdateOutcome(true, [], Changes(env, ds), graph2, ds))
  }

  /** The gate as its documentation promises it: refused updates leave the
      dependency graph as it was, and each policy receives exactly the
      events addressed to it. */
  function UpdateObj(th: Theories, graph: DepGraph, events: seq<Event>, env: Collaborators): (r: Result<UpdateOutcome, Exception>)
    ensures r.Ok? <==> forall t :: t in Targets(events) ==> GetTarget(th, t).Ok?
    ensures r.Err? ==> r.error == PolicyException
    ensures r.Ok? ==> (r.value.permitted <==>
      && (forall t :: t in Targets(events) ==> env.wouldCauseErrors(GetTarget(th, t).value, EventsFor(events, t)) == [])
      && !Recursive(env, graph, events))
    ensures r.Ok? && !r.value.permitted ==>
      && r.value.errors != []
      && r.value.delivered == [] && r.value.changes == []
      && r.value.graph == graph
      && forall x :: x in r.value.errors <==>
           Objection(th, env, events, x) || (x == PolicyException && Recursive(env, graph, events))
    ensures r.Ok? && r.value.permitted ==>
      && r.value.errors == []
      && r.value.graph == env.formulaUpdate(graph, events).0
      && r.value.changes == Changes(env, r.value.delivered)
      && (forall t :: t in Targets(events) <==> exists d :: d in r.value.delivered && d.target == t)
      && (forall i, j :: 0 <= i < j < |r.value.delivered| ==> r.value.delivered[i].target != r.value.delivered[j].target)
      && (forall d :: d in r.value.delivered ==>
            GetTarget(th, d.target) == Ok(d.policy) && d.events == EventsFor(events, d.target))
  {
    var order := TargetOrder(events);
    var policies :- ResolveTargets(th, order);
    var errors := CollectErrors(env, policies, order, events);
    var (graph1, graphChanges) := env.formulaUpdate(graph, events);
    var recursive := |graphChanges| > 0 && env.hasCycle(graph1);
    var errors' := errors + (if recursive then [PolicyException] else []);
    NoErrorsIffNoObjection(th, env, policies, order, events);
    ErrorsAreObjections(th, env, policies, order, events);
    if |errors'| > 0 then
      Ok(UpdateOutcome(false, errors', [], graph, []))
    else
      var ds := Deliveries(policies, order, events, true);
      DeliveriesCoverTargets(th, policies, order, events, true);
      Ok(UpdateOutcome(true, [], Changes(env, ds), graph1, ds))
  }

  /** The errors collected target by target are empty exactly when no
      target policy objects to its own events. */
  lemma NoErrorsIffNoObjection(th: Theories, env: Collaborators, policies: seq<Policy>, order: seq<Option<string>>, events: seq<Event>)
    requires order == TargetOrder(events)
    requires ResolveTargets(th, order) == Ok(policies)
    ensures CollectErrors(env, policies, order, events) == [] <==>
      forall t :: t in Targets(events) ==> env.wouldCauseErrors(GetTarget(th, t).value, EventsFor(events, t)) == []
  {
    forall t | t in Targets(events) ensures exists i :: 0 <= i < |order| && order[i] == t {
      assert t in order;
    }
  }

  /** The errors collected target by target are exactly the objections of
      the target policies. */
  lemma ErrorsAreObjections(th: Theories, env: Collaborators, policies: seq<Policy>, order: seq<Option<string>>, events: seq<Event>)
    requires order == TargetOrder(events)
    requires ResolveTargets(th, order) == Ok(policies)
    ensures forall x :: x in CollectErrors(env, policies, order, events) <==> Objection(th, env, events, x)
  {
    forall x | Objection(th, env, events, x) ensures x in CollectErrors(env, policies, order, events) {
      var t :| t in Targets(events) && GetTarget(th, t).Ok?
        && x in env.wouldCauseErrors(GetTarget(th, t).value, EventsFor(events, t));
      var i := IndexOf(order, t);
      assert x in env.wouldCauseErrors(policies[i], EventsFor(events, order[i]));
    }
    forall x | x in CollectErrors(env, policies, order, events) ensures Objection(th, env, events, x) {
      var i :| 0 <= i < |order| && x in env.wouldCauseErrors(policies[i], EventsFor(events, order[i]));
      assert order[i] in order;
    }
  }

  /** The deliveries name every target once, each with its policy, and with
      its own group when `ownGroup` holds. */
  lemma DeliveriesCoverTargets(th: Theories, policies: seq<Policy>, order: seq<Option<string>>, events: seq<Event>, ownGroup: bool)
    requires order == TargetOrder(events)
    requires ResolveTargets(th, order) == Ok(policies)
    ensures var ds := Deliveries(policies, order, events, ownGroup);
      && (forall t :: t in Targets(events) <==> exists d :: d in ds && d.target == t)
      && (forall i, j :: 0 <= i < j < |ds| ==> ds[i].target != ds[j].target)
      && (forall d :: d in ds ==>
            (GetTarget(th, d.target) == Ok(d.policy)
             && d.events == if ownGroup then EventsFor(events, d.target) else events))
  {
    var ds := Deliveries(policies, order, events, ownGroup);
    DeliveriesDistinct(policies, order, events, ownGroup);
    forall t | t in Targets(events) ensures exists d :: d in ds && d.target == t {
      var i := IndexOf(order, t);
      assert ds[i].target == t;
      assert ds[i] in ds;
    }
    forall d | d in ds
      ensures d.target in Targets(events)
      ensures GetTarget(th, d.target) == Ok(d.policy)
      ensures d.events == if ownGroup then EventsFor(events, d.target) else events
    {
      var i :| 0 <= i < |ds| && ds[i] == d;
      assert d == Delivery(order[i], policies[i], if ownGroup then EventsFor(events, order[i]) else events);
      assert GetTarget(th, order[i]) == Ok(policies[i]);
      assert order[i] in order;
    }
  }

  /** Deliveries for distinct targets go to distinct targets. */
  lemma DeliveriesDistinct(policies: seq<Policy>, order: seq<Option<string>>, events: seq<Event>, ownGroup: bool)
    requires |policies| == |order|
    requires forall i, j :: 0 <= i < j < |order| ==> order[i] != order[j]
    ensures var ds := Deliveries(policies, order, events, ownGroup);
      forall i, j :: 0 <= i < j < |ds| ==> ds[i].target != ds[j].target
  {
    var ds := Deliveries(policies, order, events, ownGroup);
    forall i, j | 0 <= i < j < |ds| ensures ds[i].target != ds[j].target {
      assert ds[i].target == order[i] && ds[j].target == order[j];
    }
  }

  /** The position of a member of a sequence. */
  function IndexOf<T(==)>(s: seq<T>, x: T): (i: nat)
    requires x in s
    ensures i < |s| && s[i] == x
  {
    if s[0] == x then 0 else 1 + IndexOf(s[1..], x)
  }

  /** The correction changes what happens to the graph and what the
      policies receive, never the verdict or the errors. */
  lemma AsWrittenAndCorrectedAgreeOnVerdict(th: Theories, graph: DepGraph, events: seq<Event>, env: Collaborators)
    ensures UpdateObjAsWritten(th, graph, events, env).Ok? <==> UpdateObj(th, graph, events, env).Ok?
    ensures UpdateObj(th, graph, events, env).Ok? ==>
      && UpdateObjAsWritten(th, graph, events, env).value.permitted == UpdateObj(th, graph, events, env).value.permitted
      && UpdateObjAsWritten(th, graph, events, env).value.errors == UpdateObj(th, graph, events, env).value.errors
  {
  }

  /** Under the corrected gate every event reaches exactly one policy: the
      one its own target names. */
  lemma {:induction false} EachEventDeliveredOnce(th: Theories, graph: DepGraph, events: seq<Event>, env: Collaborators, e: Event)
    requires e in events
    ensures UpdateObj(th, graph, events, env).Ok? && UpdateObj(th, graph, events, env).value.permitted ==>
      forall d :: d in UpdateObj(th, graph, events, env).value.delivered ==>
        (e in d.events <==> d.target == e.target)
    ensures UpdateObj(th, graph, events, env).Ok? && UpdateObj(th, graph, events, env).value.permitted ==>
      var ds := UpdateObj(th, graph, events, env).value.delivered;
      exists i :: 0 <= i < |ds| && e in ds[i].events
        && forall j :: 0 <= j < |ds| && j != i ==> e !in ds[j].events
  {
    var r := UpdateObj(th, graph, events, env);
    if r.Ok? && r.value.permitted {
      var ds := r.value.delivered;
      forall d | d in ds
        ensures e in d.events <==> d.target == e.target
      {
        GroupingIsPartition(events, e, d.target);
      }
      assert e.target in Targets(events);
      SoleHolder(ds, e);
    }
  }

  /** When deliveries go to distinct targets, one of them to `e`'s target,
      and a delivery holds `e` exactly when it goes to that target, then
      exactly one delivery holds `e`. */
  lemma SoleHolder(ds: seq<Delivery>, e: Event)
    requires forall i, j :: 0 <= i < j < |ds| ==> ds[i].target != ds[j].target
    requires exists d :: d in ds && d.target == e.target
    requires forall d :: d in ds ==> (e in d.events <==> d.target == e.target)
    ensures exists i :: 0 <= i < |ds| && e in ds[i].events && forall j :: 0 <= j < |ds| && j != i ==> e !in ds[j].events
  {
    var d :| d in ds && d.target == e.target;
    var i :| 0 <= i < |ds| && ds[i] == d;
    forall j | 0 <= j < |ds| && j != i ensures e !in ds[j].events {
      assert ds[j] in ds;
      if j < i { assert ds[j].target != ds[i].target; } else { assert ds[i].target != ds[j].target; }
    }
  }

  // Two policies and one event addressed to each.
  const PolicyA: Policy := Policy("a", "a", Nonrecursive)
  const PolicyB: Policy := Policy("b", "b", Nonrecursive)
  const TwoPolicies: Theories := map["a" := PolicyA, "b" := PolicyB]
  const EventA: Event := Event(AtomFormula(Atom("p", [])), true, Some("a"))
  const EventB: Event := Event(AtomFormula(Atom("q", [])), true, Some("b"))

  /** Collaborators under which nothing objects and the graph is untouched. */
  function Permissive(): Collaborators {
    Collaborators((p, es) => [], (g, es) => (g, []), g => false, (p, es) => es)
  }

  /** As written, policy `a` is handed the event addressed to policy `b`. */
  lemma AsWrittenDeliversForeignEvents()
    ensures var r := UpdateObjAsWritten(TwoPolicies, DepGraph({}), [EventA, EventB], Permissive());
      r.Ok? && r.value.permitted
      && exists d :: d in r.value.delivered && d.policy == PolicyA && EventB in d.events
  {
    var events := [EventA, EventB];
    assert [EventA][..0] == [];
    assert TargetOrder([EventA]) == [Some("a")];
    assert events[..1] == [EventA];
    assert TargetOrder(events) == [Some("a"), Some("b")];
    var r := UpdateObjAsWritten(TwoPolicies, DepGraph({}), events, Permissive());
    assert r.value.delivered[0] == Delivery(Some("a"), PolicyA, events);
  }

  /** Corrected, policy `a` receives only its own event. */
  lemma CorrectedDeliversOwnEvents()
    ensures var r := UpdateObj(TwoPolicies, DepGraph({}), [EventA, EventB], Permissive());
      r.Ok? && r.value.permitted
      && forall d :: d in r.value.delivered && d.policy == PolicyA ==> d.events == [EventA]
  {
    var events := [EventA, EventB];
    assert events[..1] == [EventA];
    assert [EventA][..0] == [];
    assert EventsFor(events, Some("a")) == [EventA];
  }

  /** Collaborators under which every policy objects while the graph update
      succeeds, acyclically, with one change. */
  function Objecting(): Collaborators {
    Collaborators((p, es) => [PolicyException],
                  (g, es) => (DepGraph({("p", "q")}), es),
                  g => false,
                  (p, es) => es)
  }

  /** As written, a refused update leaves the dependency graph changed. */
  lemma AsWrittenKeepsGraphChangesOnRefusal()
    ensures var r := UpdateObjAsWritten(TwoPolicies, DepGraph({}), [EventA], Objecting());
      r.Ok? && !r.value.permitted && r.value.graph != DepGraph({})
  {
    var events := [EventA];
    assert events[..0] == [];
    assert TargetOrder(events) == [Some("a")];
    assert EventsFor(events, Some("a")) == [EventA];
  }

  /** Corrected, a refused update leaves the dependency graph as it was. */
  lemma CorrectedRestoresGraphOnRefusal(th: Theories, graph: DepGraph, events: seq<Event>, env: Collaborators)
    requires UpdateObj(th, graph, events, env).Ok?
    requires !UpdateObj(th, graph, events, env).value.permitted
    ensures UpdateObj(th, graph, events, env).value.graph == graph
    ensures UpdateObj(th, graph, events, env).value.delivered == []
  {
  }
}

=== FILE: strings.dfy ===
/** Python string operations the modelled code relies on: `str.split` with an
    explicit separator, `str.join`, `str.startswith` and `str.lower`. */
module Strings {

  /** `sep.join(pieces)`: the pieces with one separator between neighbours. */
  function Join(sep: char, pieces: seq<string>): string
  {
    if |pieces| == 0 then ""
    else if |pieces| == 1 then pieces[0]
    else pieces[0] + [sep] + Join(sep, pieces[1..])
  }

  /** `s.split(sep)`: the maximal separator-free pieces of `s`, empty pieces
      included, so there is always at least one. */
  function Split(s: string, sep: char): (pieces: seq<string>)
    ensures |pieces| >= 1
    ensures forall i :: 0 <= i < |pieces| ==> sep !in pieces[i]
    ensures Join(sep, pieces) == s
    ensures |pieces| == 1 <==> sep !in s
    decreases |s|
  {
    if |s| == 0 then [""]
    else
      var rest := Split(s[1..], sep);
      assert s == [s[0]] + s[1..];
      if s[0] == sep then
        var pieces := [""] + rest;
        assert pieces[1..] == rest;
        pieces
      else
        var pieces := [[s[0]] + rest[0]] + rest[1..];
        assert pieces[1..] == rest[1..];
        assert |rest| > 1 ==> Join(sep, rest) == rest[0] + [sep] + Join(sep, rest[1..]);
        pieces
  }

  /** Splitting a separator-free string followed by the separator peels off
      exactly that string as the first piece. */
  lemma {:induction false} SplitAfterPiece(p: string, sep: char, t: string)
    requires sep !in p
    ensures Split(p + [sep] + t, sep) == [p] + Split(t, sep)
    decreases |p|
  {
    var s := p + [sep] + t;
    if |p| == 0 {
      assert s[1..] == t;
    } else {
      assert s[1..] == p[1..] + [sep] + t;
      SplitAfterPiece(p[1..], sep, t);
      assert [p[0]] + p[1..] == p;
    }
  }

  /** Splitting a separator-free string yields that string alone. */
  lemma {:induction false} SplitSingle(p: string, sep: char)
    requires sep !in p
    ensures Split(p, sep) == [p]
  {
  }

  /** `split` inverts `join` whenever no piece contains the separator. */
  lemma {:induction false} SplitJoin(sep: char, pieces: seq<string>)
    requires |pieces| >= 1
    requires forall i :: 0 <= i < |pieces| ==> sep !in pieces[i]
    ensures Split(Join(sep, pieces), sep) == pieces
    decreases |pieces|
  {
    if |pieces| == 1 {
      SplitSingle(pieces[0], sep);
    } else {
      SplitJoin(sep, pieces[1..]);
      SplitAfterPiece(pieces[0], sep, Join(sep, pieces[1..]));
      assert [pieces[0]] + pieces[1..] == pieces;
    }
  }

  /** Joining one more piece appends it after a separator, or alone when
      there were no pieces. */
  lemma {:induction false} JoinSnoc(sep: char, pieces: seq<string>, last: string)
    ensures Join(sep, pieces + [last]) ==
      if pieces == [] then last else Join(sep, pieces) + [sep] + last
    decreases |pieces|
  {
    var all := pieces + [last];
    if |pieces| == 1 {
      assert all[1..] == [last];
    } else if |pieces| > 1 {
      JoinSnoc(sep, pieces[1..], last);
      assert all[1..] == pieces[1..] + [last];
      assert Join(sep, all) == pieces[0] + [sep] + (Join(sep, pieces[1..]) + [sep] + last);
    }
  }

  /** `s.startswith(prefix)`. */
  predicate StartsWith(s: string, prefix: string) {
    |prefix| <= |s| && s[..|prefix|] == prefix
  }

  /** Lower-casing of one character, for the ASCII letters. */
  function LowerChar(c: char): char {
    if 'A' <= c <= 'Z' then (c as int - 'A' as int + 'a' as int) as char else c
  }

  /** `s.lower()` restricted to ASCII letters. */
  function Lower(s: string): (r: string)
    ensures |r| == |s|
    ensures forall i :: 0 <= i < |s| ==> r[i] == LowerChar(s[i])
  {
    seq(|s|, i requires 0 <= i < |s| => LowerChar(s[i]))
  }
}

=== FILE: synchronizer.dfy ===
/** The Synchronizer service: on a poll timer it reconciles the datasources
    running in this server with the datasource configuration stored in the
    database, so that several server replicas sharing one database converge
    on the same running datasources.

    Clock readings are integers in microseconds (the resolution of Python's
    `datetime`). The running services (the cage) and the database rows are
    plain values; adding and deleting a datasource are the map updates an
    ideal datasource manager would make. */
module Synchronizer {
  import opened Wrappers

  const MICROSECONDS_PER_SECOND: int := 1_000_000
  const SECONDS_PER_DAY: int := 24 * 3600

  /** A `datetime.timedelta` in its normal form: whole days (possibly
      negative), then seconds and microseconds inside their ranges. */
  datatype TimeDelta = TimeDelta(days: int, seconds: int, microseconds: int)

  /** The normalised difference of two clock readings `microseconds` apart. */
  function Delta(microseconds: int): (d: TimeDelta)
    ensures 0 <= d.seconds < SECONDS_PER_DAY
    ensures 0 <= d.microseconds < MICROSECONDS_PER_SECOND
    ensures (d.days * SECONDS_PER_DAY + d.seconds) * MICROSECONDS_PER_SECOND + d.microseconds == microseconds
  {
    var wholeSeconds := microseconds / MICROSECONDS_PER_SECOND;
    TimeDelta(wholeSeconds / SECONDS_PER_DAY, wholeSeconds % SECONDS_PER_DAY, microseconds % MICROSECONDS_PER_SECOND)
  }

  /** `diff.seconds + diff.days * 24 * 3600`: the elapsed time rounded down
      to whole seconds (towards minus infinity when the clock went back). */
  function ElapsedSeconds(last: int, now: int): (s: int)
    ensures s * MICROSECONDS_PER_SECOND <= now - last < (s + 1) * MICROSECONDS_PER_SECOND
  {
    var diff := Delta(now - last);
    diff.seconds + diff.days * SECONDS_PER_DAY
  }

  /** The timer state: the poll period in seconds (0 disables polling) and
      the clock reading of the last synchronization, if any. */
  datatype PollTimer = PollTimer(pollTime: int, lastPollTime: Option<int>)

  /** The constructor: `poll_time` from the service arguments, 0 when absent. */
  function Init(args: map<string, int>): (s: PollTimer)
    ensures s.lastPollTime.None?
    ensures "poll_time" !in args ==> s.pollTime == 0
    ensures "poll_time" in args ==> s.pollTime == args["poll_time"]
  {
    PollTimer(if "poll_time" in args then args["poll_time"] else 0, None)
  }

  /** `set_poll_time`. */
  function SetPollTime(s: PollTimer, time: int): (r: PollTimer)
    ensures r.pollTime == time && r.lastPollTime == s.lastPollTime
  {
    s.(pollTime := time)
  }

  /** One timer tick and whether it ran `synchronize`. */
  datatype Tick = Tick(state: PollTimer, synchronized: bool)

  /** `d6run`: `now` is the clock read before synchronizing, `later` the
      clock read after it. A zero period never synchronizes; the first tick
      with a period does; later ticks do once strictly more whole seconds
      than the period have passed. The last poll time moves only when a
      synchronization runs. */
  function D6Run(s: PollTimer, now: int, later: int): (r: Tick)
    ensures s.pollTime == 0 ==> !r.synchronized
    ensures s.pollTime != 0 && s.lastPollTime.None? ==> r.synchronized
    ensures s.pollTime != 0 && s.lastPollTime.Some? ==>
      (r.synchronized <==> ElapsedSeconds(s.lastPollTime.value, now) > s.pollTime)
    ensures r.synchronized ==> r.state == s.(lastPollTime := Some(later))
    ensures !r.synchronized ==> r.state == s
  {
    if s.pollTime != 0 then
      match s.lastPollTime
      case None => Tick(s.(lastPollTime := Some(later)), true)
      case Some(last) =>
        if ElapsedSeconds(last, now) > s.pollTime then Tick(s.(lastPollTime := Some(later)), true)
        else Tick(s, false)
    else Tick(s, false)
  }

  /** A run of ticks, each given its two clock readings; the final state and
      the number of synchronizations. */
  function RunTicks(s: PollTimer, clocks: seq<(int, int)>): (PollTimer, nat)
    decreases |clocks|
  {
    if |clocks| == 0 then (s, 0)
    else
      var tick := D6Run(s, clocks[0].0, clocks[0].1);
      var (final, count) := RunTicks(tick.state, clocks[1..]);
      (final, count + if tick.synchronized then 1 else 0)
  }

  /** With a zero period no run of ticks ever synchronizes or changes the
      state. */
  lemma {:induction false} ZeroPeriodNeverSynchronizes(s: PollTimer, clocks: seq<(int, int)>)
    requires s.pollTime == 0
    ensures RunTicks(s, clocks) == (s, 0)
  {
    if |clocks| > 0 {
      ZeroPeriodNeverSynchronizes(s, clocks[1..]);
    }
  }

  /** After a synchronization, the next one needs the period to elapse
      since the clock reading that synchronization recorded. */
  lemma SynchronizationsAreSpaced(s: PollTimer, now1: int, later1: int, now2: int, later2: int)
    requires s.pollTime != 0
    requires D6Run(s, now1, later1).synchronized
    requires D6Run(D6Run(s, now1, later1).state, now2, later2).synchronized
    ensures ElapsedSeconds(later1, now2) > s.pollTime
  {
  }

  // ---------------------------------------------------------------------
  // Reconciliation

  type Config = map<string, string>

  /** A datasource row of the database. */
  datatype ConfiguredDatasource = ConfiguredDatasource(id: string, name: string, enabled: bool, config: Config)

  /** A running service: its name, its type and the arguments it was
      started with. */
  datatype Service = Service(name: string, serviceType: string, args: Config)

  /** The running services by name. */
  type Cage = map<string, Service>

  const DATASOURCE_DRIVER: string := "datasource_driver"

  /** The calls `synchronize` makes on the datasource manager. */
  datatype SyncAction =
    | DeleteDatasource(id: string, name: string)
    | AddDatasource(ds: ConfiguredDatasource)

  /** `_config_eq`: same name, and the stored configuration equals the
      arguments the service runs with. */
  predicate ConfigEq(db: ConfiguredDatasource, active: Service) {
    db.name == active.name && db.config == active.args
  }

  /** The first loop's decision for one configured datasource: an active
      one is deleted when disabled and reloaded (deleted, then added) when
      its configuration differs; an inactive one is added when enabled. */
  function Reconcile(ds: ConfiguredDatasource, cage: Cage): (actions: seq<SyncAction>)
    ensures AddDatasource(ds) in actions <==>
      ds.enabled && (ds.name in cage ==> !ConfigEq(ds, cage[ds.name]))
    ensures DeleteDatasource(ds.id, ds.name) in actions <==>
      ds.name in cage && (!ds.enabled || !ConfigEq(ds, cage[ds.name]))
    ensures forall i :: 0 <= i < |actions| ==> actions[i] in {AddDatasource(ds), DeleteDatasource(ds.id, ds.name)}
    ensures |actions| <= 2
    ensures |actions| == 2 ==> actions[0].DeleteDatasource? && actions[1].AddDatasource?
  {
    if ds.name in cage then
      if !ds.enabled then [DeleteDatasource(ds.id, ds.name)]
      else if !ConfigEq(ds, cage[ds.name]) then [DeleteDatasource(ds.id, ds.name), AddDatasource(ds)]
      else []
    else if ds.enabled then [AddDatasource(ds)]
    else []
  }

  /** The service an ideal manager starts for a datasource. */
  function Started(ds: ConfiguredDatasource): Service {
    Service(ds.name, DATASOURCE_DRIVER, ds.config)
  }

  /** An ideal datasource manager: deleting stops the named service, adding
      starts one with the stored configuration. */
  function Step(cage: Cage, action: SyncAction): Cage {
    match action
    case DeleteDatasource(_, name) => cage - {name}
    case AddDatasource(ds) => cage[ds.name := Started(ds)]
  }

  /** The manager carrying out a list of calls in order. */
  function Apply(cage: Cage, actions: seq<SyncAction>): Cage
    decreases |actions|
  {
    if |actions| == 0 then cage
    else Apply(Step(cage, actions[0]), actions[1..])
  }

  /** After one decision is carried out, the datasource is running with its
      stored configuration exactly when it is enabled, and no other service
      has changed. */
  lemma {:induction false} ReconcileSettles(ds: ConfiguredDatasource, cage: Cage)
    ensures var cage' := Apply(cage, Reconcile(ds, cage));
      && (ds.enabled ==>
            && ds.name in cage' && cage'[ds.name].args == ds.config
            && (cage'[ds.name] == Started(ds) || (ds.name in cage && cage'[ds.name] == cage[ds.name])))
      && (!ds.enabled ==> ds.name !in cage')
      && (forall n :: n != ds.name ==> (n in cage' <==> n in cage))
      && (forall n :: n != ds.name && n in cage ==> cage'[n] == cage[n])
  {
    var actions := Reconcile(ds, cage);
    if |actions| == 2 {
      assert actions[1..] == [AddDatasource(ds)];
      assert Apply(cage, actions) == Apply(cage - {ds.name}, [AddDatasource(ds)]);
    }
  }

  /** A service an ideal manager started from a datasource's stored
      configuration agrees with it under `_config_eq`, so reconciling the
      same datasource a second time makes no call. */
  lemma ReconcileIsStable(ds: ConfiguredDatasource, cage: Cage)
    ensures ConfigEq(ds, Started(ds))
    ensures Reconcile(ds, Apply(cage, Reconcile(ds, cage))) == []
  {
    var actions := Reconcile(ds, cage);
    if |actions| == 2 {
      assert actions[1..] == [AddDatasource(ds)];
      assert Apply(cage, actions) == Apply(Step(cage, actions[0]), [AddDatasource(ds)]);
      assert Apply(cage, actions) == Step(Step(cage, actions[0]), actions[1]);
    } else if |actions| == 1 {
      assert Apply(cage, actions) == Step(cage, actions[0]);
    }
  }

  /** The first loop: each configured datasource is reconciled against the
      services as the previous ones left them. */
  function ReconcileAll(dss: seq<ConfiguredDatasource>, cage: Cage): (r: (seq<SyncAction>, Cage))
    ensures r.1 == Apply(cage, r.0)
    ensures forall i :: 0 <= i < |r.0| && r.0[i].AddDatasource? ==> r.0[i].ds in dss
    ensures forall i :: 0 <= i < |r.0| && r.0[i].DeleteDatasource? ==>
      exists ds :: ds in dss && r.0[i] == DeleteDatasource(ds.id, ds.name)
    decreases |dss|
  {
    if |dss| == 0 then ([], cage)
    else
      var actions := Reconcile(dss[0], cage);
      var rest := ReconcileAll(dss[1..], Apply(cage, actions));
      ApplyAppend(cage, actions, rest.0);
      assert forall i :: 0 <= i < |actions| ==> actions[i] in {AddDatasource(dss[0]), DeleteDatasource(dss[0].id, dss[0].name)};
      assert forall ds :: ds in dss[1..] ==> ds in dss;
      (actions + rest.0, rest.1)
  }

  /** Carrying out two lists of calls one after the other is carrying out
      their concatenation. */
  lemma {:induction false} ApplyAppend(cage: Cage, first: seq<SyncAction>, second: seq<SyncAction>)
    ensures Apply(cage, first + second) == Apply(Apply(cage, first), second)
    decreases |first|
  {
    if |first| > 0 {
      assert (first + second)[0] == first[0];
      assert (first + second)[1..] == first[1..] + second;
      ApplyAppend(Step(cage, first[0]), first[1..], second);
    } else {
      assert first + second == second;
    }
  }

  /** The configured datasource names. */
  function ConfiguredNames(dss: seq<ConfiguredDatasource>): set<string> {
    set ds | ds in dss :: ds.name
  }

  /** The second loop: the running datasource drivers whose name is not
      configured. Services of other types are never chosen. */
  function Unconfigured(dss: seq<ConfiguredDatasource>, cage: Cage): (names: set<string>)
    ensures forall n :: n in names <==>
      exists k :: k in cage && cage[k].name == n && cage[k].serviceType == DATASOURCE_DRIVER && n !in ConfiguredNames(dss)
  {
    set k | k in cage && cage[k].serviceType == DATASOURCE_DRIVER && cage[k].name !in ConfiguredNames(dss) :: cage[k].name
  }

  /** What one `synchronize` call does: the manager calls of the first
      loop, the services (and engine policies of the same name) the second
      loop removes, and the services running afterwards. */
  datatype SyncOutcome = SyncOutcome(actions: seq<SyncAction>, removed: set<string>, cage: Cage)

  /** `synchronize`. */
  function Synchronize(dss: seq<ConfiguredDatasource>, cage: Cage): (r: SyncOutcome)
    ensures r.removed == Unconfigured(dss, ReconcileAll(dss, cage).1)
    ensures r.removed !! ConfiguredNames(dss)
    ensures r.cage == ReconcileAll(dss, cage).1 - r.removed
    ensures r.cage == Apply(cage, r.actions) - r.removed
  {
    var (actions, cage1) := ReconcileAll(dss, cage);
    var removed := Unconfigured(dss, cage1);
    SyncOutcome(actions, removed, cage1 - removed)
  }

  /** Every running service sits under its own name. */
  ghost predicate WellFormed(cage: Cage) {
    forall n :: n in cage ==> cage[n].name == n
  }

  /** No two configured datasources share a name. */
  ghost predicate UniqueNames(dss: seq<ConfiguredDatasource>) {
    forall i, j :: 0 <= i < j < |dss| ==> dss[i].name != dss[j].name
  }

  /** The state one configured datasource ends in: running with its stored
      configuration when enabled, absent when disabled. */
  ghost predicate Settled(ds: ConfiguredDatasource, cage: Cage) {
    && (ds.enabled ==> ds.name in cage && cage[ds.name].args == ds.config)
    && (!ds.enabled ==> ds.name !in cage)
  }

  /** Without its first datasource, a list of uniquely named datasources
      is still uniquely named, and the first name is not among the rest. */
  lemma UniqueNamesTail(dss: seq<ConfiguredDatasource>)
    requires |dss| > 0
    requires UniqueNames(dss)
    ensures UniqueNames(dss[1..])
    ensures dss[0].name !in ConfiguredNames(dss[1..])
    ensures ConfiguredNames(dss) == ConfiguredNames(dss[1..]) + {dss[0].name}
    ensures forall d :: d in dss ==> d == dss[0] || d in dss[1..]
  {
    var rest := dss[1..];
    forall i, j | 0 <= i < j < |rest| ensures rest[i].name != rest[j].name {
      assert rest[i] == dss[i + 1] && rest[j] == dss[j + 1];
    }
    forall other | other in rest ensures other.name != dss[0].name {
      var j :| 0 <= j < |rest| && rest[j] == other;
      assert dss[j + 1] == other;
    }
    assert dss == [dss[0]] + rest;
  }

  /** The first loop reconciles the first datasource, then the rest
      against the services it left. */
  lemma ReconcileAllFirst(dss: seq<ConfiguredDatasource>, cage: Cage)
    requires |dss| > 0
    ensures ReconcileAll(dss, cage).1 == ReconcileAll(dss[1..], Apply(cage, Reconcile(dss[0], cage))).1
  {
  }

  /** The first loop settles every configured datasource, touches no
      unconfigured name, and leaves drivers only under enabled names. */
  lemma {:induction false} ReconcileAllSettles(dss: seq<ConfiguredDatasource>, cage: Cage)
    requires UniqueNames(dss)
    requires WellFormed(cage)
    ensures var cage' := ReconcileAll(dss, cage).1;
      && WellFormed(cage')
      && (forall ds :: ds in dss ==> Settled(ds, cage'))
      && (forall n :: n !in ConfiguredNames(dss) ==> (n in cage' <==> n in cage))
      && (forall n :: n !in ConfiguredNames(dss) && n in cage ==> cage'[n] == cage[n])
      && (forall n :: n in cage' && n in ConfiguredNames(dss) && cage'[n].serviceType == DATASOURCE_DRIVER ==>
            exists ds :: ds in dss && ds.name == n && ds.enabled)
    decreases |dss|
  {
    if |dss| > 0 {
      var ds := dss[0];
      var cage1 := Apply(cage, Reconcile(ds, cage));
      ReconcileSettles(ds, cage);
      assert WellFormed(cage1);
      var rest := dss[1..];
      UniqueNamesTail(dss);
      ReconcileAllSettles(rest, cage1);
      var cage' := ReconcileAll(dss, cage).1;
      ReconcileAllFirst(dss, cage);
      forall d | d in dss ensures Settled(d, cage') {
        if d != ds {
          assert d in rest;
        }
      }
      forall n | n in cage' && n in ConfiguredNames(dss) && cage'[n].serviceType == DATASOURCE_DRIVER
        ensures exists d :: d in dss && d.name == n && d.enabled
      {
        if n == ds.name {
          assert ds.enabled;
        } else {
          assert n in ConfiguredNames(rest);
        }
      }
    }
  }

  /** Convergence: with distinct configured names and every service under
      its own name, after `synchronize` an enabled datasource runs with its
      stored configuration, a disabled one does not run, every running
      datasource driver is an enabled configured one, and services of other
      types under unconfigured names are untouched. */
  lemma Converges(dss: seq<ConfiguredDatasource>, cage: Cage)
    requires UniqueNames(dss)
    requires WellFormed(cage)
    ensures var cage' := Synchronize(dss, cage).cage;
      && WellFormed(cage')
      && (forall ds :: ds in dss ==> Settled(ds, cage'))
      && (forall n :: n in cage' && cage'[n].serviceType == DATASOURCE_DRIVER ==>
            exists ds :: ds in dss && ds.name == n && ds.enabled)
      && (forall n :: n in cage && n !in ConfiguredNames(dss) && cage[n].serviceType != DATASOURCE_DRIVER ==>
            n in cage' && cage'[n] == cage[n])
  {
    ReconcileAllSettles(dss, cage);
    var cage1 := ReconcileAll(dss, cage).1;
    var cage' := Synchronize(dss, cage).cage;
    forall n | n in cage' && cage'[n].serviceType == DATASOURCE_DRIVER
      ensures exists ds :: ds in dss && ds.name == n && ds.enabled
    {
      assert n in cage1 && n !in Unconfigured(dss, cage1);
      assert cage1[n].name == n;
      assert n in ConfiguredNames(dss);
    }
  }
}

=== FILE: tablenames.dfy ===
/** Qualified table names `service:table`, as the policy engine splits and
    builds them when it routes data between datasources and policies. */
module Tablenames {
  import opened Wrappers
  import opened Strings

  /** `service:table`, the name a datasource's table carries inside a policy. */
  function BuildTablename(service: string, table: string): string {
    service + [':'] + table
  }

  /** `parse_tablename`: split at every `:`; one piece means no service,
      otherwise the first piece is the service and the rest, re-joined, the
      table. */
  function ParseTablename(tablename: string): (r: (Option<string>, string))
    ensures r.0.None? <==> ':' !in tablename
    ensures r.0.None? ==> r.1 == tablename
    ensures r.0.Some? ==> ':' !in r.0.value && BuildTablename(r.0.value, r.1) == tablename
  {
    var pieces := Split(tablename, ':');
    if |pieces| == 1 then (None, pieces[0])
    else (Some(pieces[0]), Join(':', pieces[1..]))
  }

  /** Parsing a built name gives back its parts, as long as the service
      itself carries no `:` (the table may). */
  lemma {:induction false} ParseBuild(service: string, table: string)
    requires ':' !in service
    ensures ParseTablename(BuildTablename(service, table)) == (Some(service), table)
  {
    var t := BuildTablename(service, table);
    SplitAfterPiece(service, ':', table);
    var pieces := Split(t, ':');
    assert pieces == [service] + Split(table, ':');
    assert pieces[1..] == Split(table, ':');
  }

  /** Two qualified names with the same parse are the same name. */
  lemma ParseInjective(t1: string, t2: string)
    requires ParseTablename(t1) == ParseTablename(t2)
    ensures t1 == t2
  {
  }

  /** `reserved_tablename`: names starting with three underscores are
      internal to the engine. */
  predicate ReservedTablename(name: string) {
    StartsWith(name, "___")
  }

  /** A name is reserved exactly when it is three underscores followed by
      anything; a reserved name carries a service only when its `:` comes
      after the underscores. */
  lemma ReservedMeansUnderscorePrefix(name: string)
    ensures ReservedTablename(name) <==> exists rest :: name == "___" + rest
    ensures ReservedTablename(name) && ParseTablename(name).0.Some? ==>
      StartsWith(ParseTablename(name).0.value, "___")
  {
    if ReservedTablename(name) {
      assert name == "___" + name[3..];
      if ParseTablename(name).0.Some? {
        var service := ParseTablename(name).0.value;
        assert BuildTablename(service, ParseTablename(name).1) == name;
        assert forall i :: 0 <= i < 3 ==> name[i] == '_';
        assert name[|service|] == ':';
        assert name[..|service|] == service;
        assert service[..3] == name[..3];
      }
    }
  }
}

=== FILE: vm_placement.dfy ===
/** The compute-placement policy engine (`ComputePlacementEngine`): it keeps
    its datasource subscriptions in step with the tables its policy
    mentions, and turns the data messages datasources publish into events
    on its own, service-qualified tables.

    The message bus (`subscribe`, `unsubscribe`), the policy theory
    (`empty`, `insert`, `update`, `initialize_tables`) and the Datalog
    parser are not part of this model: the calls the engine makes are its
    output, and the theory's verdict on an update enters as a function. */
module VmPlacement {
  import opened Wrappers
  import opened Exceptions
  import opened Datalog
  import opened Tablenames

  /** A subscription as the engine records it: the publishing service (which
      may be missing) and the table. */
  type ExternalTable = (Option<string>, string)

  /** The calls `_set_subscriptions` makes on the bus and on its policy. */
  datatype SubscriptionPlan = SubscriptionPlan(
    subscribe: set<(string, string)>,
    unsubscribe: set<(string, string)>,
    emptied: set<string>)

  /** `_set_subscriptions`: subscribe to the requested tables not yet
      subscribed, unsubscribe from the subscribed tables no longer requested
      and empty their qualified tables in the policy; pairs without a
      service are skipped on both sides. */
  function SetSubscriptions(current: set<ExternalTable>, requested: set<ExternalTable>): (r: SubscriptionPlan)
    ensures forall s, t :: (s, t) in r.subscribe <==> (Some(s), t) in requested - current
    ensures forall s, t :: (s, t) in r.unsubscribe <==> (Some(s), t) in current - requested
    ensures forall s, t :: (s, t) in r.unsubscribe ==> BuildTablename(s, t) in r.emptied
    ensures forall name :: name in r.emptied ==> exists s, t :: (s, t) in r.unsubscribe && BuildTablename(s, t) == name
  {
    var toadd := requested - current;
    var torem := current - requested;
    SubscriptionPlan(
      set p | p in toadd && p.0.Some? :: (p.0.value, p.1),
      set p | p in torem && p.0.Some? :: (p.0.value, p.1),
      set p | p in torem && p.0.Some? :: BuildTablename(p.0.value, p.1))
  }

  /** The subscriptions the bus holds once a plan has been carried out. */
  function Subscribed(current: set<ExternalTable>, plan: SubscriptionPlan): set<ExternalTable> {
    (current - set p | p in plan.unsubscribe :: (Some(p.0), p.1))
      + set p | p in plan.subscribe :: (Some(p.0), p.1)
  }

  /** After the plan is carried out the subscriptions with a service are
      exactly the requested ones with a service, and those without a
      service are left as they were. Pairs in both sets are never touched. */
  lemma SubscriptionsMatchRequest(current: set<ExternalTable>, requested: set<ExternalTable>)
    ensures var plan := SetSubscriptions(current, requested);
      var after := Subscribed(current, plan);
      && (forall s, t :: (Some(s), t) in after <==> (Some(s), t) in requested)
      && (forall t :: (None, t) in after <==> (None, t) in current)
      && (forall s, t :: (Some(s), t) in current && (Some(s), t) in requested ==>
            (s, t) !in plan.subscribe && (s, t) !in plan.unsubscribe)
  {
  }

  /** `set_policy`'s request: the tables the new rules mention that carry a
      service, as (service, table) pairs. */
  function RequestedSubscriptions(tablenames: set<string>): (r: set<ExternalTable>)
    ensures forall p :: p in r ==> p.0.Some?
    ensures forall s, t :: (Some(s), t) in r <==> ':' !in s && BuildTablename(s, t) in tablenames
  {
    var r := set table | table in tablenames && ParseTablename(table).0.Some? :: ParseTablename(table);
    forall s, t | ':' !in s ensures ParseTablename(BuildTablename(s, t)) == (Some(s), t) {
      ParseBuild(s, t);
    }
    r
  }

  /** Some rule mentions `table`. */
  predicate Mentioned(rules: seq<Formula>, tablesOf: Formula -> set<string>, table: string) {
    exists i :: 0 <= i < |rules| && table in tablesOf(rules[i])
  }

  /** `set_policy`, as far as subscriptions go: the tables of every rule are
      gathered, reduced to those with a service, and handed to
      `_set_subscriptions`. `tablesOf` is the rules' own `tablenames`. */
  function SetPolicy(current: set<ExternalTable>, rules: seq<Formula>, tablesOf: Formula -> set<string>): (r: SubscriptionPlan)
    ensures forall s, t :: (s, t) in r.subscribe <==>
      ':' !in s && Mentioned(rules, tablesOf, BuildTablename(s, t)) && (Some(s), t) !in current
    ensures forall s, t :: (s, t) in r.unsubscribe <==>
      (Some(s), t) in current && !(':' !in s && Mentioned(rules, tablesOf, BuildTablename(s, t)))
    ensures forall name :: name in r.emptied <==>
      exists s, t :: (s, t) in r.unsubscribe && BuildTablename(s, t) == name
  {
    var tablenames := set i, table | 0 <= i < |rules| && table in tablesOf(rules[i]) :: table;
    SetSubscriptions(current, RequestedSubscriptions(tablenames))
  }

  /** An element of a published message: an update event or a table row. */
  datatype Datum = EventDatum(event: Event) | RowDatum(values: seq<string>)

  /** A data message: the sending service, the table it is about, and the
      data (a whole table or a delta). */
  datatype Message = Message(replyTo: string, dataindex: string, data: seq<Datum>)

  datatype Handler = FullTable | Delta

  /** `receive_data`: a delta when the first element is an event, the full
      table otherwise (an empty message included). */
  function Route(msg: Message): (h: Handler)
    ensures h == Delta <==> |msg.data| > 0 && msg.data[0].EventDatum?
    ensures |msg.data| == 0 ==> h == FullTable
  {
    if |msg.data| == 0 then FullTable
    else if msg.data[0].EventDatum? then Delta
    else FullTable
  }

  /** The event the engine builds from a datasource's event: the table
      prefixed with the sender, every argument's name kept as a constant,
      the insert flag kept, and no target. */
  function Requalify(sender: string, e: Event): (r: Event)
    requires e.formula.AtomFormula?
    ensures r.formula.AtomFormula? && r.insert == e.insert && r.target.None?
    ensures r.formula.atom.table == BuildTablename(sender, e.formula.atom.table)
    ensures |r.formula.atom.arguments| == |e.formula.atom.arguments|
    ensures forall i :: 0 <= i < |e.formula.atom.arguments| ==>
      r.formula.atom.arguments[i] == Constant(e.formula.atom.arguments[i].name)
  {
    var values := seq(|e.formula.atom.arguments|, i requires 0 <= i < |e.formula.atom.arguments| => e.formula.atom.arguments[i].name);
    Event(AtomFormula(Fact(BuildTablename(sender, e.formula.atom.table), values)), e.insert, None)
  }

  /** The exception the rewriting loop raises on one element, if any: a row
      has no `formula` attribute, and a non-atom formula fails the
      assertion. */
  function Rejection(d: Datum): Option<Exception> {
    match d
    case RowDatum(_) => Some(AttributeError)
    case EventDatum(e) => if e.formula.AtomFormula? then None else Some(AssertionError)
  }

  /** The rewriting loop of `receive_data_update`. */
  function RequalifyAll(sender: string, data: seq<Datum>): (r: Result<seq<Event>, Exception>)
    ensures r.Ok? <==> forall i :: 0 <= i < |data| ==> Rejection(data[i]).None?
    ensures r.Ok? ==> |r.value| == |data|
    ensures r.Ok? ==> forall i :: 0 <= i < |data| ==>
      data[i].EventDatum? && data[i].event.formula.AtomFormula? && r.value[i] == Requalify(sender, data[i].event)
    ensures r.Err? ==> exists i :: (0 <= i < |data| && Rejection(data[i]) == Some(r.error)
      && forall j :: 0 <= j < i ==> Rejection(data[j]).None?)
    decreases |data|
  {
    if |data| == 0 then Ok([])
    else
      match Rejection(data[0])
      case Some(e) => Err(e)
      case None =>
        var rest := RequalifyAll(sender, data[1..]);
        match rest
        case Err(e) =>
          var i :| 0 <= i < |data[1..]| && Rejection(data[1..][i]) == Some(e)
            && forall j :: 0 <= j < i ==> Rejection(data[1..][j]).None?;
          assert Rejection(data[i + 1]) == Some(e);
          Err(e)
        case Ok(events) =>
          assert forall i :: 0 < i < |data| ==> data[i] == data[1..][i - 1];
          Ok([Requalify(sender, data[0].event)] + events)
  }

  /** The theory's verdict on a list of events: whether they are permitted,
      and the changes (or the errors). */
  type TheoryUpdate = seq<Event> -> (bool, seq<Event>)

  /** `receive_data_update`: rewrite every event, then hand them to the
      policy; an update the policy refuses raises `CongressException`. */
  function ReceiveDataUpdate(msg: Message, update: TheoryUpdate): (r: Result<seq<Event>, Exception>)
    ensures RequalifyAll(msg.replyTo, msg.data).Err? ==> r == Err(RequalifyAll(msg.replyTo, msg.data).error)
    ensures RequalifyAll(msg.replyTo, msg.data).Ok? ==>
      var events := RequalifyAll(msg.replyTo, msg.data).value;
      && (update(events).0 ==> r == Ok(update(events).1))
      && (!update(events).0 ==> r == Err(CongressException))
  {
    var events :- RequalifyAll(msg.replyTo, msg.data);
    var (permitted, changes) := update(events);
    if permitted then Ok(changes) else Err(CongressException)
  }

  /** `receive_data_full`: every row becomes a fact of the sender's
      qualified table, and the theory reloads that one table. */
  datatype FullLoad = FullLoad(table: string, rows: seq<Datum>)

  function ReceiveDataFull(msg: Message): (r: FullLoad)
    ensures ':' !in msg.replyTo ==> ParseTablename(r.table) == (Some(msg.replyTo), msg.dataindex)
    ensures r.rows == msg.data
  {
    assert ':' !in msg.replyTo ==> ParseTablename(BuildTablename(msg.replyTo, msg.dataindex)) == (Some(msg.replyTo), msg.dataindex) by {
      if ':' !in msg.replyTo {
        ParseBuild(msg.replyTo, msg.dataindex);
      }
    }
    FullLoad(BuildTablename(msg.replyTo, msg.dataindex), msg.data)
  }

  /** What `receive_data` does with one message. */
  datatype Received = Loaded(load: FullLoad) | Updated(result: Result<seq<Event>, Exception>)

  function ReceiveData(msg: Message, update: TheoryUpdate): (r: Received)
    ensures r.Updated? <==> Route(msg) == Delta
    ensures r.Loaded? ==> r.load == ReceiveDataFull(msg)
    ensures r.Updated? ==> r.result == ReceiveDataUpdate(msg, update)
  {
    match Route(msg)
    case FullTable => Loaded(ReceiveDataFull(msg))
    case Delta => Updated(ReceiveDataUpdate(msg, update))
  }

  /** A requalified event names the sender and the original table again
      when its table name is parsed, provided the sender's name has no `:`. */
  lemma RequalifyRoundTrip(sender: string, e: Event)
    requires e.formula.AtomFormula?
    requires ':' !in sender
    ensures ParseTablename(Requalify(sender, e).formula.atom.table) == (Some(sender), e.formula.atom.table)
  {
    ParseBuild(sender, e.formula.atom.table);
  }

  /** A delta whose elements are all atom events is delivered to the theory
      element by element, in order, each under the sender's name. */
  lemma DeltaKeepsOrderAndSender(msg: Message, update: TheoryUpdate)
    requires ':' !in msg.replyTo
    requires forall i :: 0 <= i < |msg.data| ==> msg.data[i].EventDatum? && msg.data[i].event.formula.AtomFormula?
    ensures RequalifyAll(msg.replyTo, msg.data).Ok?
    ensures var events := RequalifyAll(msg.replyTo, msg.data).value;
      |events| == |msg.data| && forall i :: 0 <= i < |events| ==>
        && ParseTablename(events[i].formula.atom.table) == (Some(msg.replyTo), msg.data[i].event.formula.atom.table)
        && events[i].insert == msg.data[i].event.insert
  {
    var events := RequalifyAll(msg.replyTo, msg.data).value;
    forall i | 0 <= i < |events|
      ensures ParseTablename(events[i].formula.atom.table) == (Some(msg.replyTo), msg.data[i].event.formula.atom.table)
    {
      RequalifyRoundTrip(msg.replyTo, msg.data[i].event);
    }
  }
}

=== FILE: wrappers.dfy ===
/** Failure-compatible wrappers shared by every module of the model:
    `Option` stands for Python's "value or None", `Result` for "value or
    raised exception". */
module Wrappers {

  datatype Option<+T> = None | Some(value: T)

  datatype Result<+T, +E> = Ok(value: T) | Err(error: E) {

    predicate IsFailure() {
      Err?
    }

    function PropagateFailure<U>(): Result<U, E>
      requires Err?
    {
      Err(error)
    }

    function Extract(): T
      requires Ok?
    {
      value
    }
  }
}

/** The Python exceptions the modelled code raises or inspects. */
module Exceptions {
  import opened Wrappers

  datatype Exception =
    | KeyError
    | PolicyException
    | CongressException
    | AttributeError
    | AssertionError
      /** An error raised by a remote client, carrying an HTTP status code. */
    | ClientError(status: int)

  /** The `code` attribute of an exception, when it has one. */
  function Code(e: Exception): Option<int> {
    match e
    case ClientError(status) => Some(status)
    case _ => None
  }
}
